=== FILE: README.md ===
# ldi — a Dafny model of a small dependency-injection container

`ldi` is a Go library. A container (`Di`) keeps a registry that maps a type to a
*provider*. A plain value is registered under its dynamic type. A function is
registered once per result type, as a lazy singleton: the first request invokes
it, and the result at the provider's position is cached. Each result type
gets a provider with its own cache, so a function with two results can be
called twice, once by each of its providers (`Scenarios.PairCalledTwice`);
"at most once" in this model always means once per provider. `Invoke` calls
functions whose parameters are resolved from the registry. A container's own
registry is searched first, then its parent chain. A provider found in a
parent is still invoked on behalf of the container that asked.

This project models that core: the registry, both provider kinds,
registration (`Provide`), and the invocation engine (`innerInvoke`,
`provideParameter`, `Invoke`). Everything is functional state passing:

- The store of all containers is a sequence. A container refers to its parent
  by position, and a parent always sits at a smaller position, so every parent
  chain ends.
- Every engine operation returns what it produced, the store it leaves behind,
  and a log of the function calls it made. The "called at most once"
  properties are stated over that log.
- Reflection is replaced by data: a type is `Ty(name, id)`; the error type is
  recognised by its name, as in the source; a function is a record of its
  parameter and result types. Calling a function is a parameter `h: Host`, a
  total function returning one value per declared result.
- Nested invocation is bounded by `fuel`. Function providers invoke further
  functions, and an unset provider that the lookup reaches and that needs its
  own type would recurse forever in the source. The model instead stops with
  the model-only error `OutOfFuel`.

Modules:

- `Wrappers`: `Option`, `Result` and `Outcome`.
- `Types`: types, values, function signatures, error kinds and the host.
- `Providers`: providers.go.
- `Containers`: containers, the store and the parent chain (di.go).
- `Registration`: `Provide` and its helpers (di.go).
- `Resolution`: invocation and resolution, including the provider's provide
  step (di.go, providers.go).
- `Laziness`: the lazy-singleton guarantees.
- `Variant`: the single-struct provider of provide.go and its by-value map.
- `Scenarios`: the repository's tests in di_test.go, replayed concretely.

The repository holds two incompatible versions:

- di.go with providers.go is the primary version.
- provide.go with invoke.go is a second one. Its provider is modelled in
  `Variant` and proved to behave like the primary provider (`ProvideRefines`)
  when its provide step runs on the struct itself.

The second version's map operations (provide.go:10-40) have the same shape as
providers.go:19-49 and are modelled once, generically in the provider type
(`Providers.Contains`, `GetProvider`, `AddProvider`, `Len`). They differ in one
respect that matters: providers.go stores a pointer to each provider, while
provide.go stores the struct itself (`map[reflect.Type]provider`). A lookup
there hands back a copy, and the provide step caches its result in that copy,
so the map never sees the cached value. `Variant.Request` models a lookup
followed by the provide step, and `Variant.CopyLosesCache` proves that a second
request invokes the function again. Its `functionCall` (provide.go:95-105) is
identical to providers.go:123-133 and is `Providers.FunctionCall`.

Two behaviours of the code worth noting:

- A function whose only results are of the error type, such as
  `func() error`, is accepted and registers nothing. The loop in
  di.go:76-81 counts skipped results, so the "no return values" error only
  fires for a function with no results at all (`Registration.ErrorResultsSkipped`,
  `Scenarios.ErrorOnlyFunction`).
- Errors are wrapped, not passed on verbatim. A duplicate inside a function's
  registration becomes `ProviderRejected(fn, cause)` (di.go:78), and a parameter
  failure becomes `ParameterFailed(fn, cause)` (di.go:132). `Types.Cause`
  unwraps both, as Go's `errors.Unwrap` chain does. A wrapped parameter error
  carries the function, not the parameter's position and type; only the
  innermost "not found" error names the position and type.

## Model

| member | source | states |
|---|---|---|
| Types.IsError | providers.go:119-121 | the error type is recognised by its printed name alone |
| Providers.Contains | providers.go:19-22 | membership in the provider map |
| Providers.GetProvider | providers.go:19-27 | a provider is found exactly when `contains` holds, and it is the stored entry |
| Providers.Len | providers.go:47-49 | the count is the number of registered types |
| Providers.AddProvider | providers.go:39-45 | a present type is refused with a duplicate error and the map is unchanged; otherwise exactly that type is added, every other entry stays, and the size grows by exactly one |
| Providers.AddFunction | providers.go:29-32 | a duplicate type is refused and changes nothing; otherwise the map gains an unset function provider for that function and result position |
| Providers.AddValue | providers.go:34-37 | a value provider is keyed by the value's own dynamic type; a duplicate is refused and changes nothing |
| Providers.NewFunctionProvider | providers.go:75-95 | a new function provider keeps its function and position and has no value to hand out yet |
| Providers.NewValueProvider | providers.go:110-117 | a value provider hands out its value straight away |
| Providers.Ready | providers.go:80-83 | the value a provider hands out without a call: a value provider's value, or a function provider's cache once it is valid |
| Providers.Settle | providers.go:87-92 | after an invocation, a failure is returned as it is and the provider is unchanged (cache unset); a success returns the result at the provider's position and the cache then holds exactly that value |
| Providers.FirstError | providers.go:125-131 | the scan finds the leftmost non-nil error-typed result, or reports that none exists |
| Providers.FunctionCall | providers.go:123-133 | the call fails exactly when some error-typed result is non-nil, and the error is the leftmost such result; nil errors do not fail it; on success all results come back unchanged and in order |
| Containers.New | di.go:13-16 | a new root container with an empty registry is appended; earlier containers are untouched |
| Containers.NewWithParent | di.go:18-24 | a new container with an empty registry and the given parent is appended; the store stays well formed, so the parent chain stays finite |
| Containers.Chain | di.go:139-152 | the containers a lookup visits, nearest first: each is the parent of the one before, positions strictly descend, and the last has no parent |
| Containers.Lookup | di.go:139-149 | the nearest container on the chain whose own registry has the type, and none nearer has it; when none is found, no container on the chain has it |
| Registration.CanAddProvider | di.go:154-162 | the error type yields "skip", a present type yields the duplicate error, and anything else may be added |
| Registration.ProvideValue | di.go:101-114 | an error-typed value is refused and changes nothing; a duplicate type is refused and changes nothing; otherwise exactly one entry, keyed by the value's type, is added and the size grows by one |
| Registration.ProvideFunctionValue | di.go:87-99 | an error-typed result is skipped without error; a duplicate result type is refused and changes nothing; otherwise an unset function provider for that position is added |
| Registration.FirstClash | di.go:76-79 | the first position of the left-to-right walk whose type is already registered, or taken by an earlier result; none before it clashes |
| Registration.ProvideResults | di.go:76-81 | the walk succeeds exactly when nothing clashes; it stops at the first clash with a wrapped duplicate error; every non-error result before the clash stays registered, and nothing at or after it is attempted |
| Registration.ProvideFunction | di.go:73-86 | a function without results is refused and registers nothing; otherwise it behaves as the walk over all results |
| Registration.Provide | di.go:64-114 | registration never removes or replaces a provider, adds only well-formed providers and only for the types the argument supplies; it succeeds exactly when a value's type is neither the error type nor present, or when a function has results whose non-error types are all new and pairwise distinct; a success adds all supplied types and the size grows by their number; a refused value changes nothing and reports the error type or the duplicate; a refused function reports one of its own result types as the duplicate |
| Registration.FunctionOnlyAdds | di.go:73-99 | the same guarantees for a function's registration, including a walk that stops at a clash and keeps what it registered before it |
| Registration.ErrorResultsSkipped | di.go:76-97 | a function whose results are all of the error type succeeds and leaves the registry exactly as it was |
| Registration.ProvideIn | di.go:64-71 | providing into one container changes only that container's registry, never a parent link, and keeps the store well formed |
| Resolution.InnerInvoke | di.go:116-137 | a plain value or nil is refused as "not a function", with no change and no call; after a success the result list has one value per declared result, and the last logged call is the function itself; registered types and parent links never change |
| Resolution.CallWith | di.go:129-136 | the store is left as resolution left it; a parameter failure is wrapped with the function and nothing is called; otherwise exactly one call is appended to the log, made by the given caller with the resolved arguments, and the outcome is the error scan of that call's results |
| Resolution.ResolveParams | di.go:128-135 | on success there is one value per remaining parameter; every logged call was made by a provider; registered types never change |
| Resolution.Resolve | di.go:139-152 | resolution changes no key set and no parent link, and only providers make calls |
| Resolution.ProvideFrom | providers.go:80-93 | a value or a set cache is handed out with no call and no change; a lazy provider that succeeds has just called its own function and caches the result at its own position, which is what it returns |
| Resolution.Complete | providers.go:87-92 | finishing a provide step adds nothing to the call log |
| Resolution.Invoke | di.go:44-52 | a batch keeps every registered type and parent link |
| Resolution.ResolveIsLookup | di.go:139-152 | resolution is the nearest-first lookup on the parent chain, followed by the found provider's step on behalf of the original requester; when the chain is exhausted it fails with the parameter's position and type, changing and calling nothing |
| Resolution.ResolveParamsStopsAtFailure | di.go:129-133 | once a parameter fails, later parameters are never resolved: appending more changes neither the result, the store nor the log |
| Resolution.NotCalledWithoutArguments | di.go:128-136 | with a parameter failure the function is never called and the error is that failure wrapped with the function; with all parameters resolved, exactly one call with them is logged |
| Resolution.InvokeAppend | di.go:44-52 | a batch is its first part, then, if that succeeded, its second part from the store the first part left |
| Resolution.InvokeAt | di.go:44-52 | after a successful prefix, a failure of the next function is the batch's error and nothing after it runs; a success hands the rest of the batch its store |
| Resolution.InvokeOne | di.go:44-52 | a batch of one function is that function's invocation with its results discarded |
| Resolution.SecondRequestIsFree | providers.go:80-83 | once a provide step succeeded, asking the same provider again, from any container and with any fuel, returns the same value with no call and no change |
| Laziness.ParamsOnce | di.go:128-135 | under a store-wide rank on types, resolving parameters calls only providers whose cache was unset, each at most once; it changes only providers ranked below the parameters, never a set one, and on success every called provider is now set |
| Laziness.ResolveOnce | di.go:139-152 | the same guarantee for resolving one type, bounded by that type's rank |
| Laziness.ProvideOnce | providers.go:80-93 | the same guarantee for one provide step; and a failed step leaves an unset cache unset, so a later request retries |
| Laziness.StepOnce | providers.go:87-92 | the provider's own call comes last, after lower-ranked resolution, and on failure its cache stays unset |
| Laziness.InvocationOnce | di.go:116-137 | one top-level invocation calls each function provider at most once, and only providers whose cache was unset |
| Laziness.BatchOnce | di.go:44-52 | a whole batch calls each function provider at most once, and only providers unset when the batch began |
| Laziness.NoRepeatAfterSuccess | providers.go:80-93 | after a successful batch, no later batch calls any provider the first one called |
| Laziness.ParamsFuel | di.go:128-135 | under a store-wide rank on types, fuel above the rank of every remaining parameter is enough: resolution never ends in the model's fuel error, so it fails only for the reasons the source reports |
| Laziness.ResolveFuel | di.go:139-152 | the same for resolving one type ranked below the fuel |
| Laziness.ProvideFuel | providers.go:80-93 | the same for one provide step of a type ranked below the fuel |
| Laziness.RankedUnsetFuel | providers.go:84-92 | an unset provider whose rank is at most the fuel left after its own step resolves its parameters and completes without the fuel error |
| Laziness.InvocationFuel | di.go:116-137 | a top-level invocation whose parameters all rank below the fuel never fails for lack of fuel |
| Laziness.BatchFuel | di.go:44-52 | a batch whose functions' parameters all rank below the fuel never fails for lack of fuel |
| Variant.NewFunctionProvider | provide.go:59-75 | the struct keeps the function and result position, and its value starts invalid |
| Variant.NewValueProvider | provide.go:77-85 | a value provider carries result position -1, no function, and its value |
| Variant.AddFunction | provide.go:20-23 | a duplicate type is refused and changes nothing; otherwise exactly that type maps to a new function provider |
| Variant.AddValue | provide.go:25-28 | a value is keyed by its own type; a duplicate is refused and changes nothing |
| Variant.Provide | provide.go:55-75 | the function is invoked exactly when the provider is a function provider with an invalid value; after a success the provider holds the value it returned; function and position never change |
| Variant.ConstructorsAgree | provide.go:59-85 | both constructors build the providers of the primary version |
| Variant.ProvideRefines | provide.go:63-72 | the provide step is the primary provider's: a ready value is returned with no invocation and no change; otherwise the outcome and the provider afterwards are those of Settle |
| Variant.ValueProviderConstant | provide.go:77-85 | a value provider returns its value whatever an invocation would give, never invokes, and never changes |
| Variant.ProvideOnce | provide.go:63-72 | after a success the provider never invokes again and keeps returning the same value; after a failure it is exactly as before and the error is the invocation's |
| Variant.ProvideKeepsOwnResult | provide.go:67-72 | a first provide succeeds exactly when the invocation does, and then returns and keeps the result at its own position |
| Variant.Request | provide.go:15-18 | a lookup hands back a copy of the stored struct and the provide step runs on it: the map comes back unchanged, the answer is missing exactly when the type is not registered, the function is invoked exactly when the stored provider is a function provider without a value, and a success leaves the result only in the copy |
| Variant.CopyLosesCache | provide.go:63-72 | after a first request that invoked the function, the map still holds the provider without a value, and a second request invokes the function again |
| Scenarios.DuplicateValue | di_test.go:83-96 | a second int is refused as a duplicate and the registry keeps one provider |
| Scenarios.ErrorOnlyFunction | di_test.go:108-117 | `func() error` is accepted and registers nothing |
| Scenarios.NoResults | di_test.go:118-131 | a function without results is refused and the registry stays empty |
| Scenarios.DuplicateFunction | di_test.go:132-153 | a second ITest function and GetITest are both refused, and only the first provider remains |
| Scenarios.FunctionThenValue | di_test.go:69-82 | GetITest registers before its string parameter is available, and with the string there are two providers |
| Scenarios.ThreeLevelsBuilt | di_test.go:20-22 | New, NewWithParent and Provide build the three-level store of the test: the string in the root, the int in its child, GetITest in the grandchild, each registration accepted |
| Scenarios.GetterStep | di_test.go:19-34 | with any fuel of at least one, the grandchild's GetITest provider resolves the string from the root, is called once, and caches its result |
| Scenarios.ParamsStep | di_test.go:19-34 | with any fuel of at least one, the parameters of `func(ITest, int)` resolve through the grandchild to GetITest's result and the child's int |
| Scenarios.TwoParents | di_test.go:19-34 | with any fuel of at least one, the invocation succeeds with exactly two calls, GetITest's and then the invoked function's with both values, and GetITest's result stays cached |
| Scenarios.TwoParentsWithoutFuel | di_test.go:19-34 | with no fuel the same invocation stops with the model's fuel error, wrapped with the invoked function: one level of nesting is what the test needs |
| Scenarios.ShadowedUnranked | di.go:139-149 | a store whose root and child providers depend on each other's types has no rank on types at all |
| Scenarios.ShadowedInvoke | di.go:139-149 | on that store, invoking through the child succeeds with any fuel of at least one, because the child's own ITest value shadows the root's provider: one call of the child's provider, then the invoked function |
| Scenarios.PairRegistered | di.go:76-81 | a function with two results registers two sibling providers, one per result position, both unset |
| Scenarios.PairStep | providers.go:80-93 | either sibling, asked first, calls the function once and caches only its own result |
| Scenarios.PairCalledTwice | providers.go:80-93 | invoking a function that needs both result types calls the two-result function twice, once per provider, then the invoked function |
| Scenarios.MissingProvider | di.go:128-148 | with any fuel, with no provider for a parameter, the error names its position and type, wrapped with the function; nothing is called or changed |

## Left out

- Reflection is left out: `reflect.ValueOf`/`TypeOf`, `Kind`, `NumIn`/`NumOut`, `Call`, and innerInvoke's unwrapping of a `reflect.Value` argument (di.go:117-124). Types, values and signatures are plain data, and calling a function is the `Host` parameter.
- The mutexes (di.go:88-89, di.go:102-103, di.go:140-150) are left out: the model is sequential.
- invoke.go is not part of this model. It repeats `Invoke`/`MustInvoke` from di.go with a lock held over the whole batch, and it calls a `d.invoke` that this version does not define.
- `MustProvide` and `MustInvoke` (di.go:33-41, di.go:54-62) are left out: they only end the process through `log.Fatal`.
- Error message texts are left out; errors are kinds carrying the type, function or parameter position the message mentions.
- Registration.Provide: requires a non-nil argument. `Provide(nil)` panics in the source: `reflect.ValueOf(nil)` is not a function (di.go:66-70), and `provideValue` then asks the invalid value for its type (di.go:105). A panic is not an error return, so nil is a precondition. `Invoke(nil)` does not panic; it is refused as "not a function" (di.go:125-126), and `Resolution.InnerInvoke` models that.
- The host is pure: calling a function returns results and does nothing else. In Go, a provider function or an invoked function could call `Provide`, `Invoke` or `NewWithParent` on a container it captured. The model assumes it does not. The guarantee that invocation never changes a registered type or a parent link (`Containers.Grows`) depends on that assumption.
- The map capacity hint (providers.go:51-55) is left out: it has no observable effect.
- Resolution.InnerInvoke: `fuel` bounds nested provider invocations, and running out yields the model-only `OutOfFuel`. When a provider that the lookup reaches depends, directly or through others, on its own type, the source recurses forever instead of returning. Under a store-wide rank on types, fuel above the rank of every parameter is enough (`Laziness.InvocationFuel`, `Laziness.BatchFuel`). `Scenarios.TwoParents` holds for any fuel of at least one, and `Scenarios.TwoParentsWithoutFuel` shows the fuel error at zero.
- Resolution.InnerInvoke: a typed nil function (`var f func() int`) has kind Func, so it passes the check at di.go:125 and the call at providers.go:124 panics. The model has no nil function value: `Fn` is always callable.
- Resolution.CallWith: a variadic function is called with its last parameter resolved as one value of the slice type, which reflect's `Call` (providers.go:124) rejects with a panic unless the element type is `any`. The model has no variadic signatures: `Fn` lists fixed parameters, and the `Host` returns one value per declared result for every call.
- Laziness.ProvideOnce: proved only under a store-wide rank on types, which every function provider's parameters, in every container, stay below. That is stronger than what the source needs in order to return. It also constrains providers shadowed by a nearer container and providers whose cache is already set. `Scenarios.ShadowedUnranked` and `Scenarios.ShadowedInvoke` give a store with no rank on which the source returns. A weaker hypothesis, covering only the unset providers that the lookup from the requester reaches, would suffice but is not proved. Where a reached provider depends on its own type the source never returns. Outside the rank the general model only guarantees that registered types and parent links never change (`Containers.Grows`).
- Laziness.ParamsOnce: the same store-wide rank hypothesis as ProvideOnce.
- Laziness.ResolveOnce: the same store-wide rank hypothesis as ProvideOnce.
- Laziness.BatchOnce: the same store-wide rank hypothesis as ProvideOnce.
- Laziness.InvocationOnce: the same store-wide rank hypothesis as ProvideOnce.
- Laziness.NoRepeatAfterSuccess: the same store-wide rank hypothesis as ProvideOnce.
- Laziness.ParamsFuel: fuel adequacy is proved only under the store-wide rank hypothesis of ProvideOnce; on stores without a rank, such as `Scenarios.ShadowedInvoke`'s, no fuel bound is stated.
- Laziness.ResolveFuel: the same store-wide rank hypothesis as ParamsFuel.
- Laziness.ProvideFuel: the same store-wide rank hypothesis as ParamsFuel.
- Laziness.RankedUnsetFuel: the same store-wide rank hypothesis as ParamsFuel.
- Laziness.InvocationFuel: the same store-wide rank hypothesis as ParamsFuel.
- Laziness.BatchFuel: the same store-wide rank hypothesis as ParamsFuel.
- Variant.Request: the function in the second version that would look a provider up and run its provide step is not in the repository: `Invoke` (invoke.go:18) calls a `d.invoke` that no file defines. The request is therefore composed from `getProvider` (provide.go:15-18) and `provide` (provide.go:55-57).
- Variant.Provide: takes the invocation's outcome from an `Invoker` parameter, because provide.go calls `di.invoke`, which no file of this version defines. Store and log threading are therefore modelled only in the primary version.
- Variant.NewFunctionProvider: the provide closures of provide.go are a `Behaviour` tag; the struct is modelled, not Go's closure identity.
- A function provider found in a parent caches its value in the parent, even though it was invoked on behalf of a child. Later requests from any child then get that value. The model reproduces this (`Resolution.SecondRequestIsFree` holds for any requester) and states no per-child caching.

=== FILE: containers.dfy ===
/** Containers (`Di` in di.go) and the store that holds them all. A container
    refers to its parent by position in the store; a parent is always created
    before its children, so every parent sits at a smaller position and the
    parent chain is finite. */
module Containers {
  import opened Wrappers
  import opened Types
  import opened Providers

  datatype Container = Container(providers: Registry, parent: Option<nat>)

  type Store = seq<Container>

  /** The provider stored under `t` can supply a `t`, and `t` is not the error type. */
  predicate Serves(t: Ty, p: Provider) {
    && !IsError(t)
    && match p
       case ValueP(v) => v.Obj? && v.ty == t
       case FuncP(fn, i, _) => i < |fn.results| && fn.results[i] == t
  }

  predicate RegistryWF(reg: Registry) {
    forall t :: t in reg ==> Serves(t, reg[t])
  }

  predicate ContainerWF(c: Container, at: nat) {
    && (c.parent.Some? ==> c.parent.value < at)
    && RegistryWF(c.providers)
  }

  predicate WF(s: Store) {
    forall c :: 0 <= c < |s| ==> ContainerWF(s[c], c)
  }

  /** A root container with an empty registry; its position is returned. */
  function New(s: Store): (r: (Store, nat))
    requires WF(s)
    ensures WF(r.0) && r.1 == |s| && |r.0| == |s| + 1 && r.0[..|s|] == s
    ensures r.0[r.1] == Container(map[], None)
  {
    NewWithParent(s, None)
  }

  /** A container with an empty registry that delegates misses to `parent`. */
  function NewWithParent(s: Store, parent: Option<nat>): (r: (Store, nat))
    requires WF(s)
    requires parent.Some? ==> parent.value < |s|
    ensures WF(r.0) && r.1 == |s| && |r.0| == |s| + 1 && r.0[..|s|] == s
    ensures r.0[r.1] == Container(map[], parent)
  {
    (s + [Container(map[], parent)], |s|)
  }

  // ---------------------------------------------------------------------------
  // The parent chain
  // ---------------------------------------------------------------------------

  /** The containers consulted for a lookup starting at `c`, nearest first. */
  function Chain(s: Store, c: nat): (ch: seq<nat>)
    requires WF(s) && c < |s|
    ensures |ch| >= 1 && ch[0] == c
    ensures forall k :: 0 <= k < |ch| ==> ch[k] < |s|
    ensures forall k :: 0 < k < |ch| ==> ch[k] < c
    ensures forall k :: 0 <= k < |ch| - 1 ==> s[ch[k]].parent == Some(ch[k + 1]) && ch[k + 1] < ch[k]
    ensures s[ch[|ch| - 1]].parent == None
    decreases c
  {
    match s[c].parent
    case None => [c]
    case Some(p) => [c] + Chain(s, p)
  }

  /** The nearest container on the chain of `c` whose own registry has `t`.
      The chain descends strictly, so "nearer" means "at a larger position". */
  function Lookup(s: Store, c: nat, t: Ty): (r: Option<nat>)
    requires WF(s) && c < |s|
    ensures r.Some? ==> r.value in Chain(s, c) && t in s[r.value].providers
    ensures var ch := Chain(s, c);
            forall k :: 0 <= k < |ch| && (r.None? || ch[k] > r.value) ==> t !in s[ch[k]].providers
    decreases c
  {
    if t in s[c].providers then Some(c)
    else match s[c].parent
      case None => None
      case Some(p) =>
        assert Chain(s, c) == [c] + Chain(s, p);
        Lookup(s, p, t)
  }

  // ---------------------------------------------------------------------------
  // How resolution may change the store
  // ---------------------------------------------------------------------------

  /** A provider after some resolutions: a value provider is untouched, a
      function provider keeps its function and position, and a set cache stays set. */
  predicate Refines(p: Provider, q: Provider) {
    match p
    case ValueP(_) => q == p
    case FuncP(fn, i, c) => q.FuncP? && q.fn == fn && q.index == i && (c.Some? ==> q.cache.Some?)
  }

  predicate RegistryGrows(r: Registry, r': Registry) {
    && r'.Keys == r.Keys
    && forall t :: t in r ==> Refines(r[t], r'[t])
  }

  /** Resolution never adds, removes or replaces a provider and never changes a
      parent link; only lazy caches get filled. */
  predicate Grows(s: Store, s': Store) {
    && WF(s')
    && |s'| == |s|
    && forall c :: 0 <= c < |s| ==> s'[c].parent == s[c].parent && RegistryGrows(s[c].providers, s'[c].providers)
  }

  /** The store with the provider under `t` at container `c` replaced by `p`. */
  function SetProvider(s: Store, c: nat, t: Ty, p: Provider): Store
    requires c < |s|
  {
    s[c := s[c].(providers := s[c].providers[t := p])]
  }

  lemma GrowsRefl(s: Store)
    requires WF(s)
    ensures Grows(s, s)
  {
  }

  lemma GrowsTrans(s1: Store, s2: Store, s3: Store)
    requires Grows(s1, s2) && Grows(s2, s3)
    ensures Grows(s1, s3)
  {
    forall c | 0 <= c < |s1|
      ensures RegistryGrows(s1[c].providers, s3[c].providers)
    {
      assert RegistryGrows(s1[c].providers, s2[c].providers);
      assert RegistryGrows(s2[c].providers, s3[c].providers);
    }
  }
}

=== FILE: laziness.dfy ===
/** Lazy-singleton guarantees of function providers, and how much fuel is
    enough. They are proved under a store-wide rank on types that the
    parameters of every function provider, in every container, stay below.
    That is stronger than what the original needs in order to return: it also
    constrains providers that a nearer container shadows and providers whose
    cache is already set (Scenarios.ShadowedInvoke returns on a store that has
    no rank). What the rank rules out for certain is a provider that the
    lookup reaches and that depends, directly or through others, on its own
    type; there the original recurses forever, and the model runs out of fuel. */
module Laziness {
  import opened Wrappers
  import opened Types
  import opened Providers
  import opened Containers
  import opened Resolution

  // ---------------------------------------------------------------------------
  // A store-wide rank on types
  // ---------------------------------------------------------------------------

  ghost predicate Below(ps: seq<Ty>, rank: Ty -> nat, b: nat) {
    forall j :: 0 <= j < |ps| ==> rank(ps[j]) < b
  }

  ghost predicate RankedRegistry(reg: Registry, rank: Ty -> nat) {
    forall t :: t in reg && reg[t].FuncP? ==> Below(reg[t].fn.params, rank, rank(t))
  }

  /** Every function provider's parameter types rank below the type it provides,
      in every container of the store, reachable or not. */
  ghost predicate Ranked(s: Store, rank: Ty -> nat) {
    forall c :: 0 <= c < |s| ==> RankedRegistry(s[c].providers, rank)
  }

  lemma RankedGrows(s: Store, s': Store, rank: Ty -> nat)
    requires Grows(s, s') && Ranked(s, rank)
    ensures Ranked(s', rank)
  {
    forall c | 0 <= c < |s'| ensures RankedRegistry(s'[c].providers, rank) {
      assert RegistryGrows(s[c].providers, s'[c].providers);
      forall t | t in s'[c].providers && s'[c].providers[t].FuncP?
        ensures Below(s'[c].providers[t].fn.params, rank, rank(t))
      {
        assert Refines(s[c].providers[t], s'[c].providers[t]);
      }
    }
  }

  // ---------------------------------------------------------------------------
  // Cache states and what the log says about them
  // ---------------------------------------------------------------------------

  /** The caller is a function provider of the store whose cache is unset. */
  ghost predicate Unset(s: Store, c: Caller) {
    && c.ByProvider?
    && c.owner < |s|
    && c.ty in s[c.owner].providers
    && s[c.owner].providers[c.ty].FuncP?
    && s[c.owner].providers[c.ty].cache.None?
  }

  /** The caller is a provider of the store that hands out a value without calling anything. */
  ghost predicate IsSet(s: Store, c: Caller) {
    && c.ByProvider?
    && c.owner < |s|
    && c.ty in s[c.owner].providers
    && Ready(s[c.owner].providers[c.ty]).Some?
  }

  /** No provider that could hand out a value already is changed. */
  ghost predicate Settled(s: Store, s': Store) {
    && |s'| == |s|
    && forall c, t :: (0 <= c < |s| && t in s[c].providers && t in s'[c].providers
                       && Ready(s[c].providers[t]).Some?) ==> s'[c].providers[t] == s[c].providers[t]
  }

  /** Only providers of types ranked below `b` change. */
  ghost predicate ChangesBelow(s: Store, s': Store, rank: Ty -> nat, b: nat) {
    forall c, t :: (0 <= c < |s| && c < |s'| && t in s[c].providers && t in s'[c].providers
                    && s'[c].providers[t] != s[c].providers[t]) ==> rank(t) < b
  }

  ghost predicate TagsBelow(log: seq<CallRec>, rank: Ty -> nat, b: nat) {
    forall k :: 0 <= k < |log| && log[k].caller.ByProvider? ==> rank(log[k].caller.ty) < b
  }

  ghost predicate TagsWereUnset(s: Store, log: seq<CallRec>) {
    forall k :: 0 <= k < |log| && log[k].caller.ByProvider? ==> Unset(s, log[k].caller)
  }

  ghost predicate TagsNowSet(s: Store, log: seq<CallRec>) {
    forall k :: 0 <= k < |log| && log[k].caller.ByProvider? ==> IsSet(s, log[k].caller)
  }

  /** No function provider appears twice as the caller of a logged call. */
  ghost predicate OncePerProvider(log: seq<CallRec>) {
    forall j, k :: 0 <= j < k < |log| && log[j].caller.ByProvider? ==> log[j].caller != log[k].caller
  }

  /** What a resolution from `s` that may only touch types ranked below `b`
      guarantees: set caches stay, changes stay below `b`, only unset providers
      were called, each at most once, and on success all of them are now set. */
  ghost predicate Lazy<T>(s: Store, o: Out<T>, rank: Ty -> nat, b: nat) {
    && Settled(s, o.store)
    && ChangesBelow(s, o.store, rank, b)
    && TagsBelow(o.log, rank, b)
    && TagsWereUnset(s, o.log)
    && (o.res.Success? ==> TagsNowSet(o.store, o.log))
    && OncePerProvider(o.log)
  }

  // ---------------------------------------------------------------------------
  // Composition
  // ---------------------------------------------------------------------------

  lemma UnsetEarlier(s: Store, s1: Store, c: Caller)
    requires Grows(s, s1) && Settled(s, s1) && Unset(s1, c)
    ensures Unset(s, c)
  {
    assert RegistryGrows(s[c.owner].providers, s1[c.owner].providers);
  }

  lemma SetLater(s1: Store, s2: Store, c: Caller)
    requires Grows(s1, s2) && Settled(s1, s2) && IsSet(s1, c)
    ensures IsSet(s2, c)
  {
    assert RegistryGrows(s1[c.owner].providers, s2[c.owner].providers);
  }

  /** A successful step followed by another step. */
  lemma LazyConcat<T, U>(s: Store, o1: Out<T>, o2: Out<U>, rank: Ty -> nat, b: nat)
    requires Grows(s, o1.store) && Grows(o1.store, o2.store)
    requires Lazy(s, o1, rank, b) && Lazy(o1.store, o2, rank, b) && o1.res.Success?
    ensures Lazy(s, Out(o2.res, o2.store, o1.log + o2.log), rank, b)
  {
    ConcatUnset(s, o1.store, o1.log, o2.log);
    if o2.res.Success? {
      ConcatSet(o1.store, o2.store, o1.log, o2.log);
    }
    ConcatOnce(o1.store, o1.log, o2.log);
    ConcatSettled(s, o1.store, o2.store);
    ConcatBelow(s, o1.store, o2.store, o1.log, o2.log, rank, b);
  }

  lemma ConcatUnset(s: Store, s1: Store, log1: seq<CallRec>, log2: seq<CallRec>)
    requires Grows(s, s1) && Settled(s, s1)
    requires TagsWereUnset(s, log1) && TagsWereUnset(s1, log2)
    ensures TagsWereUnset(s, log1 + log2)
  {
    var log := log1 + log2;
    forall k | 0 <= k < |log| && log[k].caller.ByProvider? ensures Unset(s, log[k].caller) {
      if k >= |log1| {
        assert log[k] == log2[k - |log1|];
        UnsetEarlier(s, s1, log[k].caller);
      }
    }
  }

  lemma ConcatSet(s1: Store, s2: Store, log1: seq<CallRec>, log2: seq<CallRec>)
    requires Grows(s1, s2) && Settled(s1, s2)
    requires TagsNowSet(s1, log1) && TagsNowSet(s2, log2)
    ensures TagsNowSet(s2, log1 + log2)
  {
    var log := log1 + log2;
    forall k | 0 <= k < |log| && log[k].caller.ByProvider? ensures IsSet(s2, log[k].caller) {
      if k < |log1| {
        assert log[k] == log1[k];
        SetLater(s1, s2, log[k].caller);
      } else {
        assert log[k] == log2[k - |log1|];
      }
    }
  }

  /** Calls made after the first step are by providers that were still unset,
      and every provider the first step called is set by then. */
  lemma ConcatOnce(s1: Store, log1: seq<CallRec>, log2: seq<CallRec>)
    requires OncePerProvider(log1) && OncePerProvider(log2)
    requires TagsNowSet(s1, log1) && TagsWereUnset(s1, log2)
    ensures OncePerProvider(log1 + log2)
  {
    var log := log1 + log2;
    var n := |log1|;
    forall j, k | 0 <= j < k < |log| && log[j].caller.ByProvider? ensures log[j].caller != log[k].caller {
      if j < n && k >= n {
        assert log[j] == log1[j] && log[k] == log2[k - n];
        assert IsSet(s1, log[j].caller);
        if log[k].caller.ByProvider? {
          assert Unset(s1, log[k].caller);
        }
      } else if j >= n {
        assert log[j] == log2[j - n] && log[k] == log2[k - n];
      } else {
        assert log[j] == log1[j] && log[k] == log1[k];
      }
    }
  }

  lemma ConcatSettled(s: Store, s1: Store, s2: Store)
    requires Grows(s, s1) && Settled(s, s1) && Settled(s1, s2)
    ensures Settled(s, s2)
  {
    forall c, t | 0 <= c < |s| && t in s[c].providers && t in s2[c].providers
                  && Ready(s[c].providers[t]).Some?
      ensures s2[c].providers[t] == s[c].providers[t]
    {
      assert RegistryGrows(s[c].providers, s1[c].providers);
    }
  }

  lemma ConcatBelow(s: Store, s1: Store, s2: Store, log1: seq<CallRec>, log2: seq<CallRec>, rank: Ty -> nat, b: nat)
    requires Grows(s, s1) && ChangesBelow(s, s1, rank, b) && ChangesBelow(s1, s2, rank, b)
    requires TagsBelow(log1, rank, b) && TagsBelow(log2, rank, b)
    ensures ChangesBelow(s, s2, rank, b) && TagsBelow(log1 + log2, rank, b)
  {
    forall c, t | 0 <= c < |s| && c < |s2| && t in s[c].providers && t in s2[c].providers
                  && s2[c].providers[t] != s[c].providers[t]
      ensures rank(t) < b
    {
      assert RegistryGrows(s[c].providers, s1[c].providers);
    }
    var log := log1 + log2;
    forall k | 0 <= k < |log| && log[k].caller.ByProvider? ensures rank(log[k].caller.ty) < b {
      if k < |log1| {
        assert log[k] == log1[k];
      } else {
        assert log[k] == log2[k - |log1|];
      }
    }
  }

  // ---------------------------------------------------------------------------
  // The three mutually recursive steps of resolution
  // ---------------------------------------------------------------------------

  /** Resolving parameters that rank below `b`. */
  lemma {:induction false} ParamsOnce(h: Host, s: Store, req: nat, ps: seq<Ty>, i: nat, fuel: nat, rank: Ty -> nat, b: nat)
    requires WF(s) && req < |s| && i <= |ps| && Ranked(s, rank)
    requires forall j :: i <= j < |ps| ==> rank(ps[j]) < b
    ensures Lazy(s, ResolveParams(h, s, req, ps, i, fuel), rank, b)
    decreases fuel, 2, |ps| - i
  {
    if i < |ps| {
      var r := Resolve(h, s, req, req, ps[i], i, fuel);
      ResolveOnce(h, s, req, req, ps[i], i, fuel, rank);
      if r.res.Success? {
        RankedGrows(s, r.store, rank);
        var rest := ResolveParams(h, r.store, req, ps, i + 1, fuel);
        ParamsOnce(h, r.store, req, ps, i + 1, fuel, rank, b);
        LazyConcat(s, r, rest, rank, b);
      }
    }
  }

  /** Resolving a type `t` touches only types ranked up to `t`. */
  lemma {:induction false} ResolveOnce(h: Host, s: Store, cur: nat, req: nat, t: Ty, index: nat, fuel: nat, rank: Ty -> nat)
    requires WF(s) && cur < |s| && req < |s| && Ranked(s, rank)
    ensures Lazy(s, Resolve(h, s, cur, req, t, index, fuel), rank, rank(t) + 1)
    decreases fuel, 1, cur
  {
    if t in s[cur].providers {
      ProvideOnce(h, s, cur, t, req, fuel, rank);
    } else if s[cur].parent.Some? {
      ResolveOnce(h, s, s[cur].parent.value, req, t, index, fuel, rank);
    }
  }

  /** A provide step calls the provider's own function at most once, only when
      its cache is unset, and a failure leaves the cache unset for a later retry. */
  lemma {:induction false} ProvideOnce(h: Host, s: Store, owner: nat, t: Ty, req: nat, fuel: nat, rank: Ty -> nat)
    requires WF(s) && owner < |s| && req < |s| && t in s[owner].providers && Ranked(s, rank)
    ensures Lazy(s, ProvideFrom(h, s, owner, t, req, fuel), rank, rank(t) + 1)
    ensures var o := ProvideFrom(h, s, owner, t, req, fuel);
            Unset(s, ByProvider(owner, t)) && o.res.Failure? ==> Unset(o.store, ByProvider(owner, t))
    decreases fuel, 0, 0
  {
    var p := s[owner].providers[t];
    if Ready(p).None? && fuel > 0 {
      var f: nat := fuel - 1;
      var args := ResolveParams(h, s, req, p.fn.params, 0, f);
      assert RankedRegistry(s[owner].providers, rank);
      assert Below(p.fn.params, rank, rank(t));
      ParamsOnce(h, s, req, p.fn.params, 0, f, rank, rank(t));
      StepOnce(h, s, owner, t, p, args, rank);
      ProvideFromUnfold(h, s, owner, t, req, f);
    } else {
      UntouchedLazy(s, ProvideFrom(h, s, owner, t, req, fuel), rank, rank(t) + 1);
    }
  }

  /** An outcome that changes nothing and calls nothing is lazy at any bound. */
  lemma UntouchedLazy<T>(s: Store, o: Out<T>, rank: Ty -> nat, b: nat)
    requires o.store == s && o.log == []
    ensures Lazy(s, o, rank, b)
  {
  }

  /** A provide step of an unset provider with fuel left. */
  lemma ProvideFromUnfold(h: Host, s: Store, owner: nat, t: Ty, req: nat, f: nat)
    requires WF(s) && owner < |s| && req < |s| && t in s[owner].providers
    requires Ready(s[owner].providers[t]).None?
    ensures var p := s[owner].providers[t];
            ProvideFrom(h, s, owner, t, req, f + 1) ==
              Complete(owner, t, p, CallWith(h, p.fn, ByProvider(owner, t), ResolveParams(h, s, req, p.fn.params, 0, f)))
  {
  }

  /** The provider's own step on top of a lower-ranked resolution of its parameters. */
  lemma StepOnce(h: Host, s: Store, owner: nat, t: Ty, p: Provider, args: Out<seq<Val>>, rank: Ty -> nat)
    requires WF(s) && owner < |s| && t in s[owner].providers && p == s[owner].providers[t]
    requires p.FuncP? && p.cache.None?
    requires Grows(s, args.store) && Lazy(s, args, rank, rank(t))
    ensures var inv := CallWith(h, p.fn, ByProvider(owner, t), args);
            && (inv.res.Success? ==> p.index < |inv.res.value|)
            && var o := Complete(owner, t, p, inv);
               && Lazy(s, o, rank, rank(t) + 1)
               && (o.res.Failure? ==> Unset(o.store, ByProvider(owner, t)))
  {
    var me := ByProvider(owner, t);
    StillUnset(s, args.store, rank, me);
    var inv := CallWith(h, p.fn, me, args);
    if args.res.Failure? {
      WeakenBound(s, args, rank, rank(t), rank(t) + 1);
    } else {
      var results := h(p.fn, args.res.value);
      var rec := CallRec(me, p.fn, args.res.value, results);
      assert inv.log == args.log + [rec];
      OwnCallLast(s, args.log, rec, rank, rank(t));
      WeakenStore(s, args.store, rank, rank(t), rank(t) + 1);
      if inv.res.Success? {
        var s' := SetProvider(args.store, owner, t, FuncP(p.fn, p.index, Some(results[p.index])));
        assert Complete(owner, t, p, inv).store == s';
        CacheWritten(s, args.store, s', args.log, rec, rank, me, results[p.index]);
      }
    }
  }

  lemma WeakenBound<T>(s: Store, o: Out<T>, rank: Ty -> nat, b: nat, b': nat)
    requires Lazy(s, o, rank, b) && b <= b'
    ensures Lazy(s, o, rank, b')
  {
  }

  lemma WeakenStore(s: Store, s': Store, rank: Ty -> nat, b: nat, b': nat)
    requires ChangesBelow(s, s', rank, b) && b <= b'
    ensures ChangesBelow(s, s', rank, b')
  {
  }

  /** Resolution that stays below the provider's own rank leaves it alone. */
  lemma StillUnset(s: Store, s': Store, rank: Ty -> nat, me: Caller)
    requires Grows(s, s') && Unset(s, me) && ChangesBelow(s, s', rank, rank(me.ty))
    ensures Unset(s', me) && s'[me.owner].providers[me.ty] == s[me.owner].providers[me.ty]
  {
    assert RegistryGrows(s[me.owner].providers, s'[me.owner].providers);
  }

  /** Appending the provider's own call to a log of lower-ranked calls. */
  lemma OwnCallLast(s: Store, log: seq<CallRec>, rec: CallRec, rank: Ty -> nat, b: nat)
    requires TagsBelow(log, rank, b) && TagsWereUnset(s, log) && OncePerProvider(log)
    requires Unset(s, rec.caller) && rank(rec.caller.ty) == b
    ensures TagsBelow(log + [rec], rank, b + 1)
    ensures TagsWereUnset(s, log + [rec])
    ensures OncePerProvider(log + [rec])
  {
    var l := log + [rec];
    forall j, k | 0 <= j < k < |l| && l[j].caller.ByProvider? ensures l[j].caller != l[k].caller {
      if k == |log| {
        assert l[j] == log[j];
      } else {
        assert l[j] == log[j] && l[k] == log[k];
      }
    }
  }

  /** Writing the cache of an unset provider after lower-ranked resolution. */
  lemma CacheWritten(s: Store, s1: Store, s': Store, log: seq<CallRec>, rec: CallRec, rank: Ty -> nat, me: Caller, v: Val)
    requires Unset(s, me) && Unset(s1, me) && rec.caller == me
    requires Grows(s, s1) && Settled(s, s1) && ChangesBelow(s, s1, rank, rank(me.ty))
    requires TagsBelow(log, rank, rank(me.ty)) && TagsNowSet(s1, log)
    requires s' == SetProvider(s1, me.owner, me.ty, s1[me.owner].providers[me.ty].(cache := Some(v)))
    ensures Settled(s, s') && ChangesBelow(s, s', rank, rank(me.ty) + 1)
    ensures TagsNowSet(s', log + [rec])
  {
    CacheWrittenStore(s, s1, s', rank, me, v);
    CacheWrittenTags(s1, s', log, rec, rank, me, v);
  }

  lemma CacheWrittenStore(s: Store, s1: Store, s': Store, rank: Ty -> nat, me: Caller, v: Val)
    requires Unset(s, me) && Unset(s1, me)
    requires Grows(s, s1) && Settled(s, s1) && ChangesBelow(s, s1, rank, rank(me.ty))
    requires s' == SetProvider(s1, me.owner, me.ty, s1[me.owner].providers[me.ty].(cache := Some(v)))
    ensures Settled(s, s') && ChangesBelow(s, s', rank, rank(me.ty) + 1)
  {
    assert RegistryGrows(s[me.owner].providers, s1[me.owner].providers);
  }

  lemma CacheWrittenTags(s1: Store, s': Store, log: seq<CallRec>, rec: CallRec, rank: Ty -> nat, me: Caller, v: Val)
    requires Unset(s1, me) && rec.caller == me
    requires TagsBelow(log, rank, rank(me.ty)) && TagsNowSet(s1, log)
    requires s' == SetProvider(s1, me.owner, me.ty, s1[me.owner].providers[me.ty].(cache := Some(v)))
    ensures TagsNowSet(s', log + [rec])
  {
    var l := log + [rec];
    forall k | 0 <= k < |l| && l[k].caller.ByProvider? ensures IsSet(s', l[k].caller) {
      if k < |log| {
        assert l[k] == log[k];
        assert IsSet(s1, log[k].caller);
      }
    }
  }

  // ---------------------------------------------------------------------------
  // Top-level invocation
  // ---------------------------------------------------------------------------

  /** A bound strictly above the rank of every type in `ps`. */
  function RankBound(ps: seq<Ty>, rank: Ty -> nat): (b: nat)
    ensures forall j :: 0 <= j < |ps| ==> rank(ps[j]) < b
  {
    if |ps| == 0 then 0
    else
      var rest := RankBound(ps[1..], rank);
      assert forall j :: 1 <= j < |ps| ==> ps[j] == ps[1..][j - 1];
      if rank(ps[0]) + 1 > rest then rank(ps[0]) + 1 else rest
  }

  /** What a top-level operation guarantees, without a rank bound. */
  ghost predicate LazyTop<T>(s: Store, o: Out<T>) {
    && Settled(s, o.store)
    && TagsWereUnset(s, o.log)
    && (o.res.Success? ==> TagsNowSet(o.store, o.log))
    && OncePerProvider(o.log)
  }

  /** One top-level invocation calls each function provider at most once. */
  lemma InvocationOnce(h: Host, s: Store, req: nat, a: Any, fuel: nat, rank: Ty -> nat)
    requires WF(s) && req < |s| && Ranked(s, rank)
    ensures LazyTop(s, InnerInvoke(h, s, req, a, TopLevel, fuel))
  {
    if a.Func? {
      var b := RankBound(a.fn.params, rank);
      ParamsOnce(h, s, req, a.fn.params, 0, fuel, rank, b);
      TopCall(h, s, a.fn, ResolveParams(h, s, req, a.fn.params, 0, fuel), rank, b);
    }
  }

  /** The top-level call itself adds no provider call to the log. */
  lemma TopCall(h: Host, s: Store, fn: Fn, args: Out<seq<Val>>, rank: Ty -> nat, b: nat)
    requires Lazy(s, args, rank, b)
    ensures LazyTop(s, CallWith(h, fn, TopLevel, args))
  {
    var o := CallWith(h, fn, TopLevel, args);
    if args.res.Success? {
      var n := |args.log|;
      assert forall k :: 0 <= k < n ==> o.log[k] == args.log[k];
      assert o.log[n].caller == TopLevel;
    }
  }

  /** A whole batch calls each function provider at most once, and only
      providers whose cache was unset when the batch began. */
  lemma {:induction false} BatchOnce(h: Host, s: Store, req: nat, fs: seq<Any>, fuel: nat, rank: Ty -> nat)
    requires WF(s) && req < |s| && Ranked(s, rank)
    ensures LazyTop(s, Invoke(h, s, req, fs, fuel))
    decreases |fs|
  {
    if |fs| > 0 {
      var first := InnerInvoke(h, s, req, fs[0], TopLevel, fuel);
      InvocationOnce(h, s, req, fs[0], fuel, rank);
      if first.res.Success? {
        RankedGrows(s, first.store, rank);
        var rest := Invoke(h, first.store, req, fs[1..], fuel);
        BatchOnce(h, first.store, req, fs[1..], fuel, rank);
        TopConcat(s, first, rest);
      }
    }
  }

  lemma TopConcat<T, U>(s: Store, o1: Out<T>, o2: Out<U>)
    requires Grows(s, o1.store) && Grows(o1.store, o2.store)
    requires LazyTop(s, o1) && LazyTop(o1.store, o2) && o1.res.Success?
    ensures LazyTop(s, Out(o2.res, o2.store, o1.log + o2.log))
  {
    ConcatUnset(s, o1.store, o1.log, o2.log);
    if o2.res.Success? {
      ConcatSet(o1.store, o2.store, o1.log, o2.log);
    }
    ConcatOnce(o1.store, o1.log, o2.log);
    ConcatSettled(s, o1.store, o2.store);
  }

  /** After a batch that succeeded, no later batch calls any provider the first
      one called: a provider's function runs at most once across successes. */
  lemma NoRepeatAfterSuccess(h: Host, s: Store, req: nat, fs: seq<Any>, req2: nat, gs: seq<Any>, fuel: nat, fuel2: nat, rank: Ty -> nat)
    requires WF(s) && req < |s| && req2 < |s| && Ranked(s, rank)
    requires Invoke(h, s, req, fs, fuel).res.Success?
    ensures var a := Invoke(h, s, req, fs, fuel);
            var b := Invoke(h, a.store, req2, gs, fuel2);
            forall j, k :: 0 <= j < |a.log| && 0 <= k < |b.log| && a.log[j].caller.ByProvider? ==>
              a.log[j].caller != b.log[k].caller
  {
    var a := Invoke(h, s, req, fs, fuel);
    BatchOnce(h, s, req, fs, fuel, rank);
    RankedGrows(s, a.store, rank);
    var b := Invoke(h, a.store, req2, gs, fuel2);
    BatchOnce(h, a.store, req2, gs, fuel2, rank);
    forall j, k | 0 <= j < |a.log| && 0 <= k < |b.log| && a.log[j].caller.ByProvider?
      ensures a.log[j].caller != b.log[k].caller
    {
      assert IsSet(a.store, a.log[j].caller);
      if b.log[k].caller.ByProvider? {
        assert Unset(a.store, b.log[k].caller);
      }
    }
  }

  // ---------------------------------------------------------------------------
  // Enough fuel
  // ---------------------------------------------------------------------------

  /** The outcome is not the model's fuel bound: a success, or an error of the source. */
  ghost predicate NotFuelBound<T>(o: Out<T>) {
    o.res.Failure? ==> Cause(o.res.error) != OutOfFuel
  }

  /** Under a store-wide rank, fuel above the rank of every parameter is
      enough: resolving them never fails for lack of fuel. */
  lemma {:induction false} ParamsFuel(h: Host, s: Store, req: nat, ps: seq<Ty>, i: nat, fuel: nat, rank: Ty -> nat)
    requires WF(s) && req < |s| && i <= |ps| && Ranked(s, rank)
    requires forall j :: i <= j < |ps| ==> rank(ps[j]) < fuel
    ensures NotFuelBound(ResolveParams(h, s, req, ps, i, fuel))
    decreases fuel, 2, |ps| - i
  {
    if i < |ps| {
      var r := Resolve(h, s, req, req, ps[i], i, fuel);
      ResolveFuel(h, s, req, req, ps[i], i, fuel, rank);
      if r.res.Success? {
        RankedGrows(s, r.store, rank);
        ParamsFuel(h, r.store, req, ps, i + 1, fuel, rank);
      }
    }
  }

  /** Resolving a type ranked below the fuel never fails for lack of fuel. */
  lemma {:induction false} ResolveFuel(h: Host, s: Store, cur: nat, req: nat, t: Ty, index: nat, fuel: nat, rank: Ty -> nat)
    requires WF(s) && cur < |s| && req < |s| && Ranked(s, rank) && rank(t) < fuel
    ensures NotFuelBound(Resolve(h, s, cur, req, t, index, fuel))
    decreases fuel, 1, cur
  {
    if t in s[cur].providers {
      ProvideFuel(h, s, cur, t, req, fuel, rank);
    } else if s[cur].parent.Some? {
      ResolveFuel(h, s, s[cur].parent.value, req, t, index, fuel, rank);
    }
  }

  /** A provide step for a type ranked below the fuel never fails for lack of fuel. */
  lemma {:induction false} ProvideFuel(h: Host, s: Store, owner: nat, t: Ty, req: nat, fuel: nat, rank: Ty -> nat)
    requires WF(s) && owner < |s| && req < |s| && t in s[owner].providers && Ranked(s, rank) && rank(t) < fuel
    ensures NotFuelBound(ProvideFrom(h, s, owner, t, req, fuel))
    decreases fuel, 0, 0
  {
    if Ready(s[owner].providers[t]).None? {
      var f: nat := fuel - 1;
      RankedUnsetFuel(h, s, owner, t, req, f, rank);
    }
  }

  /** An unset provider ranked no higher than the fuel left after its own step. */
  lemma {:induction false} RankedUnsetFuel(h: Host, s: Store, owner: nat, t: Ty, req: nat, f: nat, rank: Ty -> nat)
    requires WF(s) && owner < |s| && req < |s| && t in s[owner].providers && Ranked(s, rank) && rank(t) <= f
    requires Ready(s[owner].providers[t]).None?
    ensures NotFuelBound(ProvideFrom(h, s, owner, t, req, f + 1))
    decreases f, 3, 0
  {
    var p := s[owner].providers[t];
    assert RankedRegistry(s[owner].providers, rank);
    assert Below(p.fn.params, rank, rank(t));
    ParamsFuel(h, s, req, p.fn.params, 0, f, rank);
    UnsetFuel(h, s, owner, t, req, f);
  }

  /** An unset provider whose parameters resolve without a fuel error. */
  lemma UnsetFuel(h: Host, s: Store, owner: nat, t: Ty, req: nat, f: nat)
    requires WF(s) && owner < |s| && req < |s| && t in s[owner].providers
    requires Ready(s[owner].providers[t]).None?
    requires NotFuelBound(ResolveParams(h, s, req, s[owner].providers[t].fn.params, 0, f))
    ensures NotFuelBound(ProvideFrom(h, s, owner, t, req, f + 1))
  {
    var p := s[owner].providers[t];
    StepFuel(h, s, owner, t, p, ResolveParams(h, s, req, p.fn.params, 0, f));
    ProvideFromUnfold(h, s, owner, t, req, f);
  }

  /** The provider's own call and caching add no fuel error. */
  lemma StepFuel(h: Host, s: Store, owner: nat, t: Ty, p: Provider, args: Out<seq<Val>>)
    requires WF(s) && owner < |s| && t in s[owner].providers && p == s[owner].providers[t]
    requires p.FuncP? && Grows(s, args.store) && NotFuelBound(args)
    ensures var inv := CallWith(h, p.fn, ByProvider(owner, t), args);
            && (inv.res.Success? ==> p.index < |inv.res.value|)
            && NotFuelBound(Complete(owner, t, p, inv))
  {
    assert RegistryGrows(s[owner].providers, args.store[owner].providers);
    CallFuel(h, p.fn, ByProvider(owner, t), args);
  }

  /** Calling a function adds no fuel error of its own. */
  lemma CallFuel(h: Host, fn: Fn, caller: Caller, args: Out<seq<Val>>)
    requires NotFuelBound(args)
    ensures NotFuelBound(CallWith(h, fn, caller, args))
  {
  }

  /** A top-level invocation with fuel above the rank of every parameter never
      fails for lack of fuel; with the source's unbounded recursion it fails
      only for the reasons the source reports. */
  lemma InvocationFuel(h: Host, s: Store, req: nat, a: Any, fuel: nat, rank: Ty -> nat)
    requires WF(s) && req < |s| && Ranked(s, rank)
    requires a.Func? ==> forall j :: 0 <= j < |a.fn.params| ==> rank(a.fn.params[j]) < fuel
    ensures NotFuelBound(InnerInvoke(h, s, req, a, TopLevel, fuel))
  {
    if a.Func? {
      ParamsFuel(h, s, req, a.fn.params, 0, fuel, rank);
      CallFuel(h, a.fn, TopLevel, ResolveParams(h, s, req, a.fn.params, 0, fuel));
    }
  }

  /** A batch whose functions' parameters all rank below the fuel never fails
      for lack of fuel. */
  lemma {:induction false} BatchFuel(h: Host, s: Store, req: nat, fs: seq<Any>, fuel: nat, rank: Ty -> nat)
    requires WF(s) && req < |s| && Ranked(s, rank)
    requires forall i, j :: 0 <= i < |fs| && fs[i].Func? && 0 <= j < |fs[i].fn.params| ==> rank(fs[i].fn.params[j]) < fuel
    ensures NotFuelBound(Invoke(h, s, req, fs, fuel))
    decreases |fs|
  {
    if |fs| > 0 {
      var first := InnerInvoke(h, s, req, fs[0], TopLevel, fuel);
      InvocationFuel(h, s, req, fs[0], fuel, rank);
      if first.res.Success? {
        RankedGrows(s, first.store, rank);
        assert forall i :: 0 <= i < |fs| - 1 ==> fs[1..][i] == fs[i + 1];
        BatchFuel(h, first.store, req, fs[1..], fuel, rank);
      }
    }
  }
}

=== FILE: providers.dfy ===
/** The provider registry and the two provider variants of providers.go. */
module Providers {
  import opened Wrappers
  import opened Types

  /** A value provider holds its value; a function provider holds the function,
      the position of its result and a cache that starts unset. */
  datatype Provider = ValueP(value: Val) | FuncP(fn: Fn, index: nat, cache: Option<Val>)

  /** The registry: at most one provider per type. */
  type Registry = map<Ty, Provider>

  // ---------------------------------------------------------------------------
  // Map operations. They are generic in the provider type so that the
  // single-struct provider of the second version (module Variant) shares them.
  // ---------------------------------------------------------------------------

  function Contains<P>(reg: map<Ty, P>, t: Ty): bool {
    t in reg
  }

  /** Lookup only: found exactly when Contains holds, and then the stored entry. */
  function GetProvider<P>(reg: map<Ty, P>, t: Ty): (r: Option<P>)
    ensures r.Some? <==> Contains(reg, t)
    ensures r.Some? ==> reg[t] == r.value
  {
    if t in reg then Some(reg[t]) else None
  }

  /** The number of registered types. */
  function Len<P>(reg: map<Ty, P>): (n: nat)
    ensures n == |reg.Keys|
  {
    |reg|
  }

  /** Inserting rejects a type that is already present and leaves the map as it
      was; otherwise exactly that type is added and every other entry stays. */
  function AddProvider<P>(reg: map<Ty, P>, t: Ty, p: P): (u: Update<map<Ty, P>>)
    ensures Contains(reg, t) ==> u == Update(Fail(DuplicateProvider(t)), reg)
    ensures !Contains(reg, t) ==> u.outcome.Pass? && u.state.Keys == reg.Keys + {t} && u.state[t] == p
    ensures forall k :: k in reg ==> k in u.state && u.state[k] == reg[k]
    ensures Len(u.state) == Len(reg) + (if u.outcome.Pass? then 1 else 0)
  {
    if Contains(reg, t) then Update(Fail(DuplicateProvider(t)), reg)
    else Update(Pass, reg[t := p])
  }

  // ---------------------------------------------------------------------------
  // Providers
  // ---------------------------------------------------------------------------

  /** A new function provider has nothing to hand out until its function runs. */
  function NewFunctionProvider(fn: Fn, index: nat): (p: Provider)
    ensures p.FuncP? && p.fn == fn && p.index == index && Ready(p).None?
  {
    FuncP(fn, index, None)
  }

  /** A value provider can hand out its value straight away. */
  function NewValueProvider(v: Val): (p: Provider)
    ensures Ready(p) == Some(v)
  {
    ValueP(v)
  }

  /** A function provider for result `index` of `fn`, stored under type `t`. */
  function AddFunction(reg: Registry, fn: Fn, t: Ty, index: nat): (u: Update<Registry>)
    ensures Contains(reg, t) ==> u == Update(Fail(DuplicateProvider(t)), reg)
    ensures !Contains(reg, t) ==> u.outcome.Pass? && u.state == reg[t := FuncP(fn, index, None)]
  {
    AddProvider(reg, t, NewFunctionProvider(fn, index))
  }

  /** A value provider, stored under the value's own dynamic type. */
  function AddValue(reg: Registry, v: Val): (u: Update<Registry>)
    requires v.Obj?
    ensures Contains(reg, v.ty) ==> u == Update(Fail(DuplicateProvider(v.ty)), reg)
    ensures !Contains(reg, v.ty) ==> u.outcome.Pass? && u.state == reg[v.ty := ValueP(v)]
  {
    AddProvider(reg, v.ty, NewValueProvider(v))
  }

  /** The value a provider hands out without invoking anything, if it has one:
      a value provider's value, or a function provider's cache once it is set. */
  function Ready(p: Provider): Option<Val> {
    match p
    case ValueP(v) => Some(v)
    case FuncP(_, _, c) => c
  }

  /** A lazy provider after its function was invoked: a failure is returned as
      it is and caches nothing; a success caches the result at the provider's
      own position and returns it. */
  function Settle(p: Provider, invoked: Result<seq<Val>, Error>): (r: (Result<Val, Error>, Provider))
    requires p.FuncP?
    requires invoked.Success? ==> p.index < |invoked.value|
    ensures r.1.FuncP? && r.1.fn == p.fn && r.1.index == p.index
    ensures invoked.Failure? ==> r == (Failure(invoked.error), p)
    ensures invoked.Success? ==> r.0 == Success(invoked.value[p.index]) && Ready(r.1) == Some(r.0.value)
  {
    match invoked
    case Failure(e) => (Failure(e), p)
    case Success(vs) => (Success(vs[p.index]), p.(cache := Some(vs[p.index])))
  }

  // ---------------------------------------------------------------------------
  // functionCall: the scan of a call's results for an error
  // ---------------------------------------------------------------------------

  /** Result `k` is of the error type and is not nil. */
  predicate FailsAt(fn: Fn, results: seq<Val>, k: nat)
    requires |results| == |fn.results| && k < |results|
  {
    IsError(fn.results[k]) && results[k] != Nil
  }

  /** The leftmost failing result at or after position `i`, if any. */
  function FirstError(fn: Fn, results: seq<Val>, i: nat): (k: Option<nat>)
    requires |results| == |fn.results| && i <= |results|
    ensures k.Some? ==> i <= k.value < |results| && FailsAt(fn, results, k.value)
    ensures k.Some? ==> forall j :: i <= j < k.value ==> !FailsAt(fn, results, j)
    ensures k.None? ==> forall j :: i <= j < |results| ==> !FailsAt(fn, results, j)
    decreases |results| - i
  {
    if i == |results| then None
    else if FailsAt(fn, results, i) then Some(i)
    else FirstError(fn, results, i + 1)
  }

  /** The leftmost non-nil error-typed result becomes the error; nil errors do
      not fail the call; otherwise all results come back unchanged and in order. */
  function FunctionCall(fn: Fn, results: seq<Val>): (r: Result<seq<Val>, Error>)
    requires |results| == |fn.results|
    ensures r.Success? <==> forall j :: 0 <= j < |results| ==> !FailsAt(fn, results, j)
    ensures r.Success? ==> r.value == results
    ensures r.Failure? ==> exists k :: 0 <= k < |results| && FailsAt(fn, results, k)
                                       && (forall j :: 0 <= j < k ==> !FailsAt(fn, results, j))
                                       && r.error == Returned(results[k])
  {
    match FirstError(fn, results, 0)
    case Some(k) => Failure(Returned(results[k]))
    case None => Success(results)
  }
}

=== FILE: registration.dfy ===
/** Registration: Provide and its helpers in di.go. A plain value gets a value
    provider under its dynamic type; a function gets one function provider per
    result that is not of the error type, walked left to right. */
module Registration {
  import opened Wrappers
  import opened Types
  import opened Providers
  import opened Containers

  /** Success(false): the error type, skipped; Success(true): free to add;
      Failure: a provider for the type already exists. */
  function CanAddProvider(reg: Registry, t: Ty): (r: Result<bool, Error>)
    ensures r == Success(false) <==> IsError(t)
    ensures r == Success(true) <==> !IsError(t) && t !in reg
    ensures r.Failure? ==> r.error == DuplicateProvider(t)
  {
    if IsError(t) then Success(false)
    else if Contains(reg, t) then Failure(DuplicateProvider(t))
    else Success(true)
  }

  /** Registering a plain value: the error type is refused, so is a type that is
      present; otherwise exactly one entry, keyed by the value's type, is added. */
  function ProvideValue(reg: Registry, v: Val): (u: Update<Registry>)
    requires v.Obj?
    ensures IsError(v.ty) ==> u == Update(Fail(ErrorTypedValue(v.ty)), reg)
    ensures !IsError(v.ty) && v.ty in reg ==> u == Update(Fail(DuplicateProvider(v.ty)), reg)
    ensures !IsError(v.ty) && v.ty !in reg ==>
              && u.outcome.Pass?
              && u.state.Keys == reg.Keys + {v.ty}
              && Len(u.state) == Len(reg) + 1
              && u.state[v.ty] == ValueP(v)
              && forall t :: t in reg ==> u.state[t] == reg[t]
  {
    match CanAddProvider(reg, v.ty)
    case Failure(e) => Update(Fail(e), reg)
    case Success(ok) =>
      if !ok then Update(Fail(ErrorTypedValue(v.ty)), reg)
      else AddValue(reg, v)
  }

  /** Registering result `i` of `fn`: silently skipped when it has the error type. */
  function ProvideFunctionValue(reg: Registry, fn: Fn, i: nat): (u: Update<Registry>)
    requires i < |fn.results|
    ensures IsError(fn.results[i]) ==> u == Update(Pass, reg)
    ensures !IsError(fn.results[i]) && fn.results[i] in reg ==> u == Update(Fail(DuplicateProvider(fn.results[i])), reg)
    ensures !IsError(fn.results[i]) && fn.results[i] !in reg ==>
              u == Update(Pass, reg[fn.results[i] := FuncP(fn, i, None)])
  {
    match CanAddProvider(reg, fn.results[i])
    case Failure(e) => Update(Fail(e), reg)
    case Success(ok) =>
      if !ok then Update(Pass, reg)
      else AddFunction(reg, fn, fn.results[i], i)
  }

  // ---------------------------------------------------------------------------
  // The left-to-right walk over a function's results
  // ---------------------------------------------------------------------------

  /** Result `k` of the walk started at `lo` over `reg` meets a type that is
      already taken: registered before the walk, or by an earlier result. */
  predicate Clash(reg: Registry, ts: seq<Ty>, lo: nat, k: nat)
    requires lo <= k < |ts|
  {
    !IsError(ts[k]) && (ts[k] in reg || exists j :: lo <= j < k && ts[j] == ts[k])
  }

  /** The first clashing position at or after `k`, or |ts| when there is none. */
  function FirstClash(reg: Registry, ts: seq<Ty>, lo: nat, k: nat): (r: nat)
    requires lo <= k <= |ts|
    ensures k <= r <= |ts|
    ensures forall j :: k <= j < r ==> !Clash(reg, ts, lo, j)
    ensures r < |ts| ==> Clash(reg, ts, lo, r)
    decreases |ts| - k
  {
    if k == |ts| then k
    else if Clash(reg, ts, lo, k) then k
    else FirstClash(reg, ts, lo, k + 1)
  }

  /** `reg'` is `reg` plus a function provider for every result of `fn` at
      positions lo..hi-1 that is not of the error type, and nothing else. */
  ghost predicate Registered(reg: Registry, fn: Fn, lo: nat, hi: nat, reg': Registry)
    requires lo <= hi <= |fn.results|
  {
    && (forall t :: t in reg' <==> t in reg || exists j :: lo <= j < hi && !IsError(fn.results[j]) && fn.results[j] == t)
    && (forall t :: t in reg ==> t in reg' && reg'[t] == reg[t])
    && (forall j :: lo <= j < hi && !IsError(fn.results[j]) ==>
          fn.results[j] in reg' && reg'[fn.results[j]] == FuncP(fn, j, None))
  }

  /** Two walks whose clash positions agree from `k` on stop at the same place. */
  lemma {:induction false} FirstClashAgrees(reg: Registry, lo: nat, reg2: Registry, lo2: nat, ts: seq<Ty>, k: nat)
    requires lo <= k <= |ts| && lo2 <= k
    requires forall j :: k <= j < |ts| ==> (Clash(reg, ts, lo, j) <==> Clash(reg2, ts, lo2, j))
    ensures FirstClash(reg, ts, lo, k) == FirstClash(reg2, ts, lo2, k)
    decreases |ts| - k
  {
    if k < |ts| && !Clash(reg, ts, lo, k) {
      FirstClashAgrees(reg, lo, reg2, lo2, ts, k + 1);
    }
  }

  /** After result `i` was registered (or skipped), the rest of the walk sees
      the same clashes as the walk from `i` would. */
  lemma ClashShift(reg: Registry, fn: Fn, i: nat, reg2: Registry)
    requires i < |fn.results| && !Clash(reg, fn.results, i, i)
    requires reg2.Keys == reg.Keys + (if IsError(fn.results[i]) then {} else {fn.results[i]})
    ensures FirstClash(reg, fn.results, i, i) == FirstClash(reg2, fn.results, i + 1, i + 1)
  {
    var ts := fn.results;
    forall j | i + 1 <= j < |ts|
      ensures Clash(reg, ts, i, j) <==> Clash(reg2, ts, i + 1, j)
    {
      if Clash(reg, ts, i, j) && ts[j] !in reg {
        var m :| i <= m < j && ts[m] == ts[j];
        if m == i { assert ts[j] in reg2; }
      }
      if Clash(reg2, ts, i + 1, j) && ts[j] !in reg2 {
        var m :| i + 1 <= m < j && ts[m] == ts[j];
        assert i <= m < j;
      }
    }
    FirstClashAgrees(reg, i, reg2, i + 1, ts, i + 1);
  }

  /** The walk from position `i`: it stops at the first clash, reporting it as
      a duplicate; everything registered before the clash stays registered and
      nothing after it is attempted. */
  function ProvideResults(reg: Registry, fn: Fn, i: nat): (u: Update<Registry>)
    requires i <= |fn.results|
    ensures var k := FirstClash(reg, fn.results, i, i);
            && (u.outcome.Pass? <==> k == |fn.results|)
            && Registered(reg, fn, i, k, u.state)
            && (k < |fn.results| ==> u.outcome == Fail(ProviderRejected(fn, DuplicateProvider(fn.results[k]))))
    decreases |fn.results| - i
  {
    if i == |fn.results| then Update(Pass, reg)
    else
      var step := ProvideFunctionValue(reg, fn, i);
      if step.outcome.Fail? then
        Update(Fail(ProviderRejected(fn, step.outcome.error)), step.state)
      else
        ClashShift(reg, fn, i, step.state);
        var rest := ProvideResults(step.state, fn, i + 1);
        RegisteredExtend(reg, fn, i, FirstClash(step.state, fn.results, i + 1, i + 1), step.state, rest.state);
        rest
  }

  /** Registering result `i` first and then positions i+1..k-1 registers i..k-1. */
  lemma RegisteredExtend(reg: Registry, fn: Fn, i: nat, k: nat, reg2: Registry, reg': Registry)
    requires i < k <= |fn.results|
    requires reg2 == if IsError(fn.results[i]) then reg else reg[fn.results[i] := FuncP(fn, i, None)]
    requires !IsError(fn.results[i]) ==> fn.results[i] !in reg
    requires Registered(reg2, fn, i + 1, k, reg')
    ensures Registered(reg, fn, i, k, reg')
  {
    var ts := fn.results;
    forall t ensures t in reg' <==> t in reg || exists j :: i <= j < k && !IsError(ts[j]) && ts[j] == t {
      if t in reg' && t !in reg {
        if t in reg2 {
          assert i <= i < k && !IsError(ts[i]) && ts[i] == t;
        } else {
          var j :| i + 1 <= j < k && !IsError(ts[j]) && ts[j] == t;
          assert i <= j < k;
        }
      }
    }
  }

  /** Registering a function. A function with no results is refused; error-typed
      results are skipped without complaint, so a function whose results are all
      errors succeeds and registers nothing. */
  function ProvideFunction(reg: Registry, fn: Fn): (u: Update<Registry>)
    ensures |fn.results| == 0 ==> u == Update(Fail(NoReturnValues(fn)), reg)
    ensures var k := FirstClash(reg, fn.results, 0, 0);
            |fn.results| > 0 ==>
              && (u.outcome.Pass? <==> k == |fn.results|)
              && Registered(reg, fn, 0, k, u.state)
              && (k < |fn.results| ==> u.outcome == Fail(ProviderRejected(fn, DuplicateProvider(fn.results[k]))))
  {
    var walk := ProvideResults(reg, fn, 0);
    if walk.outcome.Fail? then walk
    // the walk's iteration count equals the number of results once it completes
    else if |fn.results| == 0 then Update(Fail(NoReturnValues(fn)), walk.state)
    else walk
  }

  /** The types Provide would register for `a`: a plain value's own type unless
      it is the error type, and a function's results that are not of the error type. */
  function Supplies(a: Any): (ts: set<Ty>)
    ensures forall t :: t in ts ==> !IsError(t)
  {
    match a
    case Plain(ty, _) => if IsError(ty) then {} else {ty}
    case Func(fn) => set j | 0 <= j < |fn.results| && !IsError(fn.results[j]) :: fn.results[j]
    case Null => {}
  }

  /** No two results of `fn` share a type other than the error type. */
  predicate DistinctResults(fn: Fn) {
    forall i, j :: 0 <= i < j < |fn.results| && !IsError(fn.results[j]) ==> fn.results[i] != fn.results[j]
  }

  /** When Provide succeeds, stated without reference to the walk: a plain value
      not of the error type and not yet registered, or a function with at least
      one result whose non-error result types are new and pairwise distinct. */
  predicate Accepted(reg: Registry, a: Any) {
    match a
    case Plain(ty, _) => !IsError(ty) && ty !in reg
    case Func(fn) => |fn.results| > 0 && reg.Keys !! Supplies(a) && DistinctResults(fn)
    case Null => false
  }

  /** Provide: functions and plain values are told apart by their kind. It never
      removes or replaces a provider, adds only well-formed ones and only for the
      types `a` supplies; it succeeds exactly when `a` is accepted, and then adds
      all of those types and the size grows by their number. A failed function
      registration reports one of its own result types as the duplicate. The nil
      interface is excluded: Go's Provide(nil) panics. */
  function Provide(reg: Registry, a: Any): (u: Update<Registry>)
    requires !a.Null?
    ensures forall t :: t in reg ==> t in u.state && u.state[t] == reg[t]
    ensures reg.Keys <= u.state.Keys <= reg.Keys + Supplies(a)
    ensures RegistryWF(reg) ==> RegistryWF(u.state)
    ensures u.outcome.Pass? <==> Accepted(reg, a)
    ensures u.outcome.Pass? ==> u.state.Keys == reg.Keys + Supplies(a) && |u.state| == |reg| + |Supplies(a)|
    ensures a.Plain? && u.outcome.Fail? ==>
              u == Update(Fail(if IsError(a.ty) then ErrorTypedValue(a.ty) else DuplicateProvider(a.ty)), reg)
    ensures a.Func? && u.outcome.Fail? && |a.fn.results| > 0 ==>
              && u.outcome.error.ProviderRejected? && u.outcome.error.fn == a.fn
              && u.outcome.error.cause.DuplicateProvider? && u.outcome.error.cause.ty in Supplies(a)
  {
    match a
    case Func(fn) =>
      FunctionOnlyAdds(reg, fn);
      ProvideFunction(reg, fn)
    case Plain(ty, id) =>
      var u := ProvideValue(reg, Obj(ty, id));
      assert u.outcome.Pass? ==> u.state.Keys == reg.Keys + Supplies(a);
      u
  }

  /** ProvideFunction against Provide's contract. */
  lemma FunctionOnlyAdds(reg: Registry, fn: Fn)
    ensures var u := ProvideFunction(reg, fn);
            && (forall t :: t in reg ==> t in u.state && u.state[t] == reg[t])
            && reg.Keys <= u.state.Keys <= reg.Keys + Supplies(Func(fn))
            && (RegistryWF(reg) ==> RegistryWF(u.state))
            && (u.outcome.Pass? <==> Accepted(reg, Func(fn)))
            && (u.outcome.Pass? ==> u.state.Keys == reg.Keys + Supplies(Func(fn)) && |u.state| == |reg| + |Supplies(Func(fn))|)
            && (u.outcome.Fail? && |fn.results| > 0 ==>
                  && u.outcome.error.ProviderRejected? && u.outcome.error.fn == fn
                  && u.outcome.error.cause.DuplicateProvider? && u.outcome.error.cause.ty in Supplies(Func(fn)))
  {
    var u := ProvideFunction(reg, fn);
    if |fn.results| > 0 {
      var k := FirstClash(reg, fn.results, 0, 0);
      RegisteredKeys(reg, fn, k, u.state);
      NoClashIff(reg, fn);
      if u.outcome.Pass? {
        FunctionPassAdds(reg, fn, u.state);
        PassSize(reg, u.state, Supplies(Func(fn)));
      } else {
        ClashSupplied(reg, fn, k);
      }
    }
  }

  /** The type at a clash is one the function supplies. */
  lemma ClashSupplied(reg: Registry, fn: Fn, k: nat)
    requires k < |fn.results| && Clash(reg, fn.results, 0, k)
    ensures fn.results[k] in Supplies(Func(fn))
  {
  }

  /** Adding a set of new keys grows a map by their number. */
  lemma PassSize(reg: Registry, reg': Registry, ts: set<Ty>)
    requires forall t :: t in ts ==> t in reg' && t !in reg
    requires reg.Keys <= reg'.Keys <= reg.Keys + ts
    ensures reg'.Keys == reg.Keys + ts && reg.Keys !! ts && |reg'| == |reg| + |ts|
  {
    assert |reg'| == |reg'.Keys| && |reg| == |reg.Keys|;
    DisjointSize(reg.Keys, ts);
  }

  /** A partial walk adds only well-formed providers, and only for supplied types. */
  lemma RegisteredKeys(reg: Registry, fn: Fn, k: nat, reg': Registry)
    requires k <= |fn.results| && Registered(reg, fn, 0, k, reg')
    ensures reg.Keys <= reg'.Keys <= reg.Keys + Supplies(Func(fn))
    ensures RegistryWF(reg) ==> RegistryWF(reg')
  {
    var ts := fn.results;
    forall t | t in reg' && t !in reg ensures Serves(t, reg'[t]) && t in Supplies(Func(fn)) {
      var j :| 0 <= j < k && !IsError(ts[j]) && ts[j] == t;
    }
  }

  /** The walk meets no clash exactly when the supplied types are new and
      pairwise distinct. */
  lemma NoClashIff(reg: Registry, fn: Fn)
    ensures FirstClash(reg, fn.results, 0, 0) == |fn.results| <==> reg.Keys !! Supplies(Func(fn)) && DistinctResults(fn)
  {
    var ts := fn.results;
    var k := FirstClash(reg, ts, 0, 0);
    if k == |ts| {
      forall t | t in Supplies(Func(fn)) ensures t !in reg {
        var j :| 0 <= j < |ts| && !IsError(ts[j]) && ts[j] == t;
        assert !Clash(reg, ts, 0, j);
      }
      forall i, j | 0 <= i < j < |ts| && !IsError(ts[j]) ensures ts[i] != ts[j] {
        assert !Clash(reg, ts, 0, j);
      }
    } else if ts[k] !in reg {
      var i :| 0 <= i < k && ts[i] == ts[k];
      assert !DistinctResults(fn);
    } else {
      assert ts[k] in Supplies(Func(fn));
    }
  }

  lemma FunctionPassAdds(reg: Registry, fn: Fn, reg': Registry)
    requires FirstClash(reg, fn.results, 0, 0) == |fn.results|
    requires Registered(reg, fn, 0, |fn.results|, reg')
    ensures forall t :: t in Supplies(Func(fn)) ==> t in reg' && t !in reg
  {
    var ts := fn.results;
    forall t | t in Supplies(Func(fn)) ensures t in reg' && t !in reg {
      var j :| 0 <= j < |ts| && !IsError(ts[j]) && ts[j] == t;
      assert !Clash(reg, ts, 0, j);
    }
  }

  lemma DisjointSize<T>(a: set<T>, b: set<T>)
    requires a !! b
    ensures |a + b| == |a| + |b|
  {
    if a != {} {
      var x :| x in a;
      DisjointSize(a - {x}, b);
      assert a + b == (a - {x} + b) + {x};
    }
  }

  /** A function whose results are all of the error type registers nothing and
      reports no error. */
  lemma ErrorResultsSkipped(reg: Registry, fn: Fn)
    requires |fn.results| > 0
    requires forall j :: 0 <= j < |fn.results| ==> IsError(fn.results[j])
    ensures ProvideFunction(reg, fn) == Update(Pass, reg)
  {
    var u := ProvideFunction(reg, fn);
    assert forall j :: 0 <= j < |fn.results| ==> !Clash(reg, fn.results, 0, j);
    assert u.state.Keys == reg.Keys;
    assert u.state == reg;
  }

  /** Provide on container `c` of the store: only `c`'s registry changes. */
  function ProvideIn(s: Store, c: nat, a: Any): (u: Update<Store>)
    requires WF(s) && c < |s| && !a.Null?
    ensures WF(u.state) && |u.state| == |s|
    ensures forall d :: 0 <= d < |s| && d != c ==> u.state[d] == s[d]
    ensures u.state[c].parent == s[c].parent
    ensures u.outcome == Provide(s[c].providers, a).outcome
    ensures u.state[c].providers == Provide(s[c].providers, a).state
  {
    var r := Provide(s[c].providers, a);
    Update(r.outcome, s[c := s[c].(providers := r.state)])
  }
}

=== FILE: resolution.dfy ===
/** Invocation and parameter resolution (innerInvoke, provideParameter and
    Invoke in di.go, with the provider's own provide step from providers.go).
    Every operation takes the store and returns the store it leaves behind,
    together with the log of function calls it made. */
module Resolution {
  import opened Wrappers
  import opened Types
  import opened Providers
  import opened Containers

  /** On whose behalf a function was called: a top-level Invoke, or the
      function provider stored under `ty` in container `owner`. */
  datatype Caller = TopLevel | ByProvider(owner: nat, ty: Ty)

  /** One call of a function: who asked, the arguments, and what it returned. */
  datatype CallRec = CallRec(caller: Caller, fn: Fn, args: seq<Val>, results: seq<Val>)

  /** What an operation produced, the store after it, and the calls it made. */
  datatype Out<T> = Out(res: Result<T, Error>, store: Store, log: seq<CallRec>)

  /** innerInvoke through container `req`: a plain value or nil is refused; otherwise
      the parameters are resolved in order, the function is called with them,
      and its results are scanned for an error. `fuel` bounds how deeply
      function providers may invoke further functions. */
  function InnerInvoke(h: Host, s: Store, req: nat, a: Any, caller: Caller, fuel: nat): (o: Out<seq<Val>>)
    requires WF(s) && req < |s|
    ensures Grows(s, o.store)
    ensures a.Plain? ==> o == Out(Failure(NotAFunction(Some(a.ty))), s, [])
    ensures a.Null? ==> o == Out(Failure(NotAFunction(None)), s, [])
    ensures a.Func? && o.res.Success? ==>
              && |o.res.value| == |a.fn.results|
              && |o.log| > 0
              && o.log[|o.log| - 1].caller == caller
              && o.log[|o.log| - 1].fn == a.fn
              && o.log[|o.log| - 1].results == o.res.value
    ensures forall k :: 0 <= k < |o.log| ==> o.log[k].caller.ByProvider? || (k == |o.log| - 1 && o.log[k].caller == caller)
    decreases fuel, 3, 0
  {
    match a
    case Plain(ty, _) => Out(Failure(NotAFunction(Some(ty))), s, [])
    case Null => Out(Failure(NotAFunction(None)), s, [])
    case Func(fn) => CallWith(h, fn, caller, ResolveParams(h, s, req, fn.params, 0, fuel))
  }

  /** The tail of innerInvoke: a parameter failure is wrapped with the function
      and nothing is called; otherwise the function is called once with the
      resolved arguments and the call is logged. */
  function CallWith(h: Host, fn: Fn, caller: Caller, args: Out<seq<Val>>): (o: Out<seq<Val>>)
    ensures o.store == args.store
    ensures args.res.Failure? ==> o.res == Failure(ParameterFailed(fn, args.res.error)) && o.log == args.log
    ensures args.res.Success? ==>
              && |o.log| == |args.log| + 1 && o.log[..|args.log|] == args.log
              && o.log[|args.log|] == CallRec(caller, fn, args.res.value, h(fn, args.res.value))
              && o.res == FunctionCall(fn, o.log[|args.log|].results)
  {
    if args.res.Failure? then
      Out(Failure(ParameterFailed(fn, args.res.error)), args.store, args.log)
    else
      var results := h(fn, args.res.value);
      Out(FunctionCall(fn, results), args.store, args.log + [CallRec(caller, fn, args.res.value, results)])
  }

  /** Resolving parameters i.. of a function through `req`, in order, stopping
      at the first failure. */
  function ResolveParams(h: Host, s: Store, req: nat, ps: seq<Ty>, i: nat, fuel: nat): (o: Out<seq<Val>>)
    requires WF(s) && req < |s| && i <= |ps|
    ensures Grows(s, o.store)
    ensures o.res.Success? ==> |o.res.value| == |ps| - i
    ensures forall k :: 0 <= k < |o.log| ==> o.log[k].caller.ByProvider?
    decreases fuel, 2, |ps| - i
  {
    if i == |ps| then
      GrowsRefl(s);
      Out(Success([]), s, [])
    else
      var r := Resolve(h, s, req, req, ps[i], i, fuel);
      if r.res.Failure? then
        Out(Failure(r.res.error), r.store, r.log)
      else
        var rest := ResolveParams(h, r.store, req, ps, i + 1, fuel);
        GrowsTrans(s, r.store, rest.store);
        Out(if rest.res.Failure? then Failure(rest.res.error) else Success([r.res.value] + rest.res.value),
            rest.store, r.log + rest.log)
  }

  /** provideParameter: container `cur` looks in its own registry and then
      hands the request to its parent; whichever provider is found is asked
      on behalf of the original requester `req`. */
  function Resolve(h: Host, s: Store, cur: nat, req: nat, t: Ty, index: nat, fuel: nat): (o: Out<Val>)
    requires WF(s) && cur < |s| && req < |s|
    ensures Grows(s, o.store)
    ensures forall k :: 0 <= k < |o.log| ==> o.log[k].caller.ByProvider?
    decreases fuel, 1, cur
  {
    if t in s[cur].providers then ProvideFrom(h, s, cur, t, req, fuel)
    else match s[cur].parent
      case Some(p) => Resolve(h, s, p, req, t, index, fuel)
      case None =>
        GrowsRefl(s);
        Out(Failure(ProviderNotFound(index, t)), s, [])
  }

  /** A provider's provide step, asked on behalf of `req`: a value or a set cache
      is returned at once; otherwise the provider's function is invoked through
      `req`, and on success the result at the provider's position is cached. */
  function ProvideFrom(h: Host, s: Store, owner: nat, t: Ty, req: nat, fuel: nat): (o: Out<Val>)
    requires WF(s) && owner < |s| && req < |s| && t in s[owner].providers
    ensures Grows(s, o.store)
    ensures forall k :: 0 <= k < |o.log| ==> o.log[k].caller.ByProvider?
    // a value, or a set cache, is handed out whoever asks, with no call and no change
    ensures Ready(s[owner].providers[t]).Some? ==>
              o == Out(Success(Ready(s[owner].providers[t]).value), s, [])
    // after a success the provider holds exactly the value it returned
    ensures o.res.Success? ==> Ready(o.store[owner].providers[t]) == Some(o.res.value)
    // a lazy provider that succeeds has just called its own function and kept
    // the result at its own position
    ensures var p := s[owner].providers[t];
            p.FuncP? && p.cache.None? && o.res.Success? ==>
              && |o.log| > 0
              && o.log[|o.log| - 1].caller == ByProvider(owner, t)
              && o.log[|o.log| - 1].fn == p.fn
              && p.index < |o.log[|o.log| - 1].results|
              && o.res.value == o.log[|o.log| - 1].results[p.index]
    decreases fuel, 0, 0
  {
    var p := s[owner].providers[t];
    match Ready(p)
    case Some(v) =>
      GrowsRefl(s);
      Out(Success(v), s, [])
    case None =>
      if fuel == 0 then
        GrowsRefl(s);
        Out(Failure(OutOfFuel), s, [])
      else
        var inv := InnerInvoke(h, s, req, Func(p.fn), ByProvider(owner, t), fuel - 1);
        assert RegistryGrows(s[owner].providers, inv.store[owner].providers);
        var o := Complete(owner, t, p, inv);
        GrowsTrans(s, inv.store, o.store);
        o
  }

  /** The end of a lazy provider's provide step: a failed invocation is passed
      on and caches nothing; a successful one caches the result at the
      provider's position in the provider's own registry. */
  function Complete(owner: nat, t: Ty, p: Provider, inv: Out<seq<Val>>): (o: Out<Val>)
    requires WF(inv.store) && owner < |inv.store| && t in inv.store[owner].providers
    requires p.FuncP? && Refines(p, inv.store[owner].providers[t])
    requires inv.res.Success? ==> p.index < |inv.res.value|
    ensures Grows(inv.store, o.store)
    ensures o.log == inv.log
    ensures o.res.Success? <==> inv.res.Success?
    ensures o.res.Failure? ==> o == Out(Failure(inv.res.error), inv.store, inv.log)
    ensures o.res.Success? ==> o.res.value == inv.res.value[p.index]
                               && Ready(o.store[owner].providers[t]) == Some(o.res.value)
  {
    var (r, p') := Settle(p, inv.res);
    if r.Failure? then Out(r, inv.store, inv.log)
    else
      var s' := SetProvider(inv.store, owner, t, p');
      assert RegistryGrows(inv.store[owner].providers, s'[owner].providers);
      Out(r, s', inv.log)
  }

  /** Invoke: the functions are invoked in order through `req` until one fails;
      that error is returned, and success only when every call succeeded. */
  function Invoke(h: Host, s: Store, req: nat, fs: seq<Any>, fuel: nat): (o: Out<()>)
    requires WF(s) && req < |s|
    ensures Grows(s, o.store)
    decreases |fs|
  {
    if |fs| == 0 then
      GrowsRefl(s);
      Out(Success(()), s, [])
    else
      var first := InnerInvoke(h, s, req, fs[0], TopLevel, fuel);
      if first.res.Failure? then Out(Failure(first.res.error), first.store, first.log)
      else
        var rest := Invoke(h, first.store, req, fs[1..], fuel);
        GrowsTrans(s, first.store, rest.store);
        Out(rest.res, rest.store, first.log + rest.log)
  }

  // ---------------------------------------------------------------------------
  // Properties of resolution and invocation
  // ---------------------------------------------------------------------------

  /** Resolution is the nearest-first search of the parent chain followed by
      the found provider's provide step on behalf of the original requester;
      when the chain is exhausted it fails with the parameter's position and
      type, changing nothing and calling nothing. */
  lemma {:induction false} ResolveIsLookup(h: Host, s: Store, cur: nat, req: nat, t: Ty, index: nat, fuel: nat)
    requires WF(s) && cur < |s| && req < |s|
    ensures Resolve(h, s, cur, req, t, index, fuel) ==
            match Lookup(s, cur, t)
            case Some(owner) => ProvideFrom(h, s, owner, t, req, fuel)
            case None => Out(Failure(ProviderNotFound(index, t)), s, [])
    decreases cur
  {
    if t !in s[cur].providers && s[cur].parent.Some? {
      ResolveIsLookup(h, s, s[cur].parent.value, req, t, index, fuel);
    }
  }

  /** Once a parameter fails, the parameters after it are never looked at:
      appending more parameters does not change the outcome, the store or the log. */
  lemma {:induction false} ResolveParamsStopsAtFailure(h: Host, s: Store, req: nat, ps: seq<Ty>, qs: seq<Ty>, i: nat, fuel: nat)
    requires WF(s) && req < |s| && i <= |ps|
    requires ResolveParams(h, s, req, ps, i, fuel).res.Failure?
    ensures ResolveParams(h, s, req, ps + qs, i, fuel) == ResolveParams(h, s, req, ps, i, fuel)
    decreases |ps| - i
  {
    assert (ps + qs)[i] == ps[i];
    var r := Resolve(h, s, req, req, ps[i], i, fuel);
    if r.res.Success? {
      ResolveParamsStopsAtFailure(h, r.store, req, ps, qs, i + 1, fuel);
    }
  }

  /** The invoked function itself is called only when every parameter resolved:
      a top-level invocation whose parameters fail leaves no top-level call in
      the log and reports the first failure wrapped with the function. */
  lemma NotCalledWithoutArguments(h: Host, s: Store, req: nat, fn: Fn, fuel: nat)
    requires WF(s) && req < |s|
    ensures var args := ResolveParams(h, s, req, fn.params, 0, fuel);
            var o := InnerInvoke(h, s, req, Func(fn), TopLevel, fuel);
            args.res.Failure? ==>
              && o.res == Failure(ParameterFailed(fn, args.res.error))
              && forall k :: 0 <= k < |o.log| ==> o.log[k].caller != TopLevel
    ensures var args := ResolveParams(h, s, req, fn.params, 0, fuel);
            var o := InnerInvoke(h, s, req, Func(fn), TopLevel, fuel);
            args.res.Success? ==>
              && |o.log| == |args.log| + 1
              && o.log[|args.log|] == CallRec(TopLevel, fn, args.res.value, h(fn, args.res.value))
              && o.res == FunctionCall(fn, h(fn, args.res.value))
  {
  }

  /** Invoking a batch is invoking its first part and then, if that succeeded,
      its second part from the store the first part left. */
  lemma {:induction false} InvokeAppend(h: Host, s: Store, req: nat, fs: seq<Any>, gs: seq<Any>, fuel: nat)
    requires WF(s) && req < |s|
    ensures Invoke(h, s, req, fs + gs, fuel) ==
            var a := Invoke(h, s, req, fs, fuel);
            if a.res.Failure? then a
            else var b := Invoke(h, a.store, req, gs, fuel);
                 Out(b.res, b.store, a.log + b.log)
    decreases |fs|
  {
    if |fs| == 0 {
      assert fs + gs == gs;
    } else {
      assert (fs + gs)[0] == fs[0];
      assert (fs + gs)[1..] == fs[1..] + gs;
      var first := InnerInvoke(h, s, req, fs[0], TopLevel, fuel);
      if first.res.Success? {
        InvokeAppend(h, first.store, req, fs[1..], gs, fuel);
        var a := Invoke(h, first.store, req, fs[1..], fuel);
        if a.res.Success? {
          var b := Invoke(h, a.store, req, gs, fuel);
          assert first.log + (a.log + b.log) == (first.log + a.log) + b.log;
        }
      }
    }
  }

  /** Invoke goes left to right: once the first `k` functions succeeded, a
      failure of function `k` is the batch's error, with nothing after it run,
      and a success of it hands the rest of the batch the store it left. */
  lemma InvokeAt(h: Host, s: Store, req: nat, fs: seq<Any>, k: nat, fuel: nat)
    requires WF(s) && req < |s| && k < |fs|
    requires Invoke(h, s, req, fs[..k], fuel).res.Success?
    ensures var a := Invoke(h, s, req, fs[..k], fuel);
            var f := InnerInvoke(h, a.store, req, fs[k], TopLevel, fuel);
            var o := Invoke(h, s, req, fs, fuel);
            && (f.res.Failure? ==> o == Out(Failure(f.res.error), f.store, a.log + f.log))
            && (f.res.Success? ==> o.res == Invoke(h, f.store, req, fs[k + 1..], fuel).res)
  {
    var a := Invoke(h, s, req, fs[..k], fuel);
    assert fs == fs[..k] + fs[k..];
    InvokeAppend(h, s, req, fs[..k], fs[k..], fuel);
    assert fs[k..] == [fs[k]] + fs[k + 1..];
    InvokeAppend(h, a.store, req, [fs[k]], fs[k + 1..], fuel);
    InvokeOne(h, a.store, req, fs[k], fuel);
  }

  /** A batch of one function is that function's invocation with its results
      discarded. */
  lemma InvokeOne(h: Host, s: Store, req: nat, f: Any, fuel: nat)
    requires WF(s) && req < |s|
    ensures var o := InnerInvoke(h, s, req, f, TopLevel, fuel);
            Invoke(h, s, req, [f], fuel) ==
              Out(if o.res.Failure? then Failure(o.res.error) else Success(()), o.store, o.log)
  {
    var o := InnerInvoke(h, s, req, f, TopLevel, fuel);
    if o.res.Success? {
      assert o.log + [] == o.log;
    }
  }

  /** The lazy singleton: once a provide step succeeded, asking the same
      provider again, on behalf of any container and with any fuel, returns the
      same value without calling anything or changing the store. */
  lemma SecondRequestIsFree(h: Host, s: Store, owner: nat, t: Ty, req: nat, fuel: nat, req2: nat, fuel2: nat)
    requires WF(s) && owner < |s| && req < |s| && req2 < |s| && t in s[owner].providers
    requires ProvideFrom(h, s, owner, t, req, fuel).res.Success?
    ensures var o := ProvideFrom(h, s, owner, t, req, fuel);
            ProvideFrom(h, o.store, owner, t, req2, fuel2) == Out(Success(o.res.value), o.store, [])
  {
  }
}

=== FILE: scenarios.dfy ===
/** The repository's own test cases (di_test.go) replayed on the model with
    concrete types, functions and a host that builds one object per result. */
module Scenarios {
  import opened Wrappers
  import opened Types
  import opened Providers
  import opened Containers
  import opened Registration
  import opened Resolution
  import Laziness

  const TString := Ty("string", 1)
  const TInt := Ty("int", 2)
  const TITest := Ty("ldi.ITest", 3)
  const TErr := Ty("error", 4)

  /** GetITest(s string) ITest */
  const GetITest := Fn(1, [TString], [TITest])

  /** A host whose functions succeed: each result of a non-error type is a
      fresh object named after the function, each error result is nil. */
  function Builds(f: Fn, args: seq<Val>): (vs: seq<Val>)
    ensures |vs| == |f.results|
  {
    seq(|f.results|, k requires 0 <= k < |f.results| => if IsError(f.results[k]) then Nil else Obj(f.results[k], f.id))
  }

  const H: Host := (f: Fn, args: seq<Val>) => Builds(f, args)

  /** Two plain values of one type: the second is refused and the registry
      keeps one provider (di_test.go, the int duplicate case). */
  lemma DuplicateValue()
    ensures var u1 := Provide(map[], Plain(TInt, 1));
            var u2 := Provide(u1.state, Plain(TInt, 2));
            && u1.outcome.Pass? && Len(u1.state) == 1
            && u2.outcome == Fail(DuplicateProvider(TInt)) && Len(u2.state) == 1
  {
    var u1 := Provide(map[], Plain(TInt, 1));
    assert u1.state.Keys == {TInt};
  }

  /** `func() error` is accepted and registers nothing. */
  lemma ErrorOnlyFunction()
    ensures Provide(map[], Func(Fn(2, [], [TErr]))) == Update(Pass, map[])
  {
    ErrorResultsSkipped(map[], Fn(2, [], [TErr]));
  }

  /** A function without results is refused and registers nothing. */
  lemma NoResults()
    ensures var u := Provide(map[], Func(Fn(3, [], [])));
            u.outcome == Fail(NoReturnValues(Fn(3, [], []))) && Len(u.state) == 0
  {
  }

  /** Two functions returning ITest, then GetITest: only the first is kept. */
  lemma DuplicateFunction()
    ensures var f1 := Fn(5, [], [TITest]);
            var f2 := Fn(6, [], [TITest]);
            var u1 := Provide(map[], Func(f1));
            var u2 := Provide(u1.state, Func(f2));
            var u3 := Provide(u2.state, Func(GetITest));
            && u1.outcome.Pass?
            && u2.outcome == Fail(ProviderRejected(f2, DuplicateProvider(TITest)))
            && u3.outcome == Fail(ProviderRejected(GetITest, DuplicateProvider(TITest)))
            && u3.state == map[TITest := FuncP(f1, 0, None)]
  {
    var f1 := Fn(5, [], [TITest]);
    var u1 := Provide(map[], Func(f1));
    assert u1.state == map[TITest := FuncP(f1, 0, None)];
  }

  /** A function and a value: two providers, and the function's parameter
      need not be resolvable when it is registered. */
  lemma FunctionThenValue()
    ensures var u1 := Provide(map[], Func(GetITest));
            var u2 := Provide(u1.state, Plain(TString, 7));
            && u1.outcome.Pass? && u2.outcome.Pass? && Len(u2.state) == 2
  {
    var u1 := Provide(map[], Func(GetITest));
    assert u1.state == map[TITest := FuncP(GetITest, 0, None)];
    var u2 := Provide(u1.state, Plain(TString, 7));
    assert u2.state.Keys == {TITest, TString};
  }

  /** A root holding a string, a child holding an int, and a grandchild holding
      GetITest, as in the two-parents test (built by ThreeLevelsBuilt). */
  function ThreeLevels(): (s: Store)
    ensures WF(s) && |s| == 3
  {
    [Root, Child, Container(map[TITest := FuncP(GetITest, 0, None)], Some(1))]
  }

  const Root := Container(map[TString := ValueP(Obj(TString, 7))], None)
  const Child := Container(map[TInt := ValueP(Obj(TInt, 123))], Some(0))

  lemma ProvideString()
    ensures ProvideIn([Container(map[], None)], 0, Plain(TString, 7)) == Update(Pass, [Root])
  {
    var r := Provide(map[], Plain(TString, 7));
    assert r == Update(Pass, Root.providers);
    var s := [Container(map[], None)];
    assert s[0 := s[0].(providers := r.state)] == [Root];
  }

  lemma ProvideInt()
    ensures ProvideIn([Root, Container(map[], Some(0))], 1, Plain(TInt, 123)) == Update(Pass, [Root, Child])
  {
    var r := Provide(map[], Plain(TInt, 123));
    assert r == Update(Pass, Child.providers);
    var s := [Root, Container(map[], Some(0))];
    assert s[1 := s[1].(providers := r.state)] == [Root, Child];
  }

  lemma ProvideGetter()
    ensures ProvideIn([Root, Child, Container(map[], Some(1))], 2, Func(GetITest)) == Update(Pass, ThreeLevels())
  {
    var m := map[TITest := FuncP(GetITest, 0, None)];
    assert ProvideFunctionValue(map[], GetITest, 0) == Update(Pass, m);
    assert ProvideResults(m, GetITest, 1) == Update(Pass, m);
    assert ProvideResults(map[], GetITest, 0) == Update(Pass, m);
    var r := Provide(map[], Func(GetITest));
    assert r == ProvideFunction(map[], GetITest) == Update(Pass, m);
    var s := [Root, Child, Container(map[], Some(1))];
    assert s[2 := s[2].(providers := r.state)] == ThreeLevels();
  }

  /** ThreeLevels is what the test's setup builds: a root with the string, a
      child of it with 123, and a grandchild with GetITest, every Provide
      succeeding. */
  lemma ThreeLevelsBuilt()
    ensures var (s0, root) := New([]);
            var u0 := ProvideIn(s0, root, Plain(TString, 7));
            var (s1, child) := NewWithParent(u0.state, Some(root));
            var u1 := ProvideIn(s1, child, Plain(TInt, 123));
            var (s2, grand) := NewWithParent(u1.state, Some(child));
            var u2 := ProvideIn(s2, grand, Func(GetITest));
            && u0.outcome.Pass? && u1.outcome.Pass? && u2.outcome.Pass?
            && (root, child, grand) == (0, 1, 2)
            && u2.state == ThreeLevels()
  {
    ProvideString();
    ProvideInt();
    ProvideGetter();
    assert [Root] + [Container(map[], Some(0))] == [Root, Container(map[], Some(0))];
    assert [Root, Child] + [Container(map[], Some(1))] == [Root, Child, Container(map[], Some(1))];
  }

  /** ThreeLevels after GetITest's result was cached in the grandchild. */
  function Cached(): (s: Store)
    ensures WF(s) && |s| == 3
  {
    SetProvider(ThreeLevels(), 2, TITest, FuncP(GetITest, 0, Some(Obj(TITest, 1))))
  }

  const GetterCall := CallRec(ByProvider(2, TITest), GetITest, [Obj(TString, 7)], [Obj(TITest, 1)])

  /** The string parameter of GetITest, asked through the grandchild: it is
      found in the root, which holds a plain value, so nothing is called. */
  lemma StringStep(fuel: nat)
    ensures Resolve(H, ThreeLevels(), 2, 2, TString, 0, fuel) == Out(Success(Obj(TString, 7)), ThreeLevels(), [])
  {
    var s := ThreeLevels();
    assert Resolve(H, s, 0, 2, TString, 0, fuel) == Out(Success(Obj(TString, 7)), s, []);
    assert Resolve(H, s, 1, 2, TString, 0, fuel) == Resolve(H, s, 0, 2, TString, 0, fuel);
  }

  /** The grandchild's GetITest provider, asked for the first time with any
      fuel that allows one nested invocation: it resolves the string from the
      root, calls GetITest once and caches the result. */
  lemma GetterStep(fuel: nat)
    requires fuel >= 1
    ensures ProvideFrom(H, ThreeLevels(), 2, TITest, 2, fuel) == Out(Success(Obj(TITest, 1)), Cached(), [GetterCall])
  {
    var s := ThreeLevels();
    var f: nat := fuel - 1;
    StringStep(f);
    assert ResolveParams(H, s, 2, GetITest.params, 1, f) == Out(Success([]), s, []);
    assert [Obj(TString, 7)] + [] == [Obj(TString, 7)];
    var args := ResolveParams(H, s, 2, GetITest.params, 0, f);
    assert args == Out(Success([Obj(TString, 7)]), s, []);
    assert H(GetITest, [Obj(TString, 7)]) == [Obj(TITest, 1)];
    assert FunctionCall(GetITest, [Obj(TITest, 1)]) == Success([Obj(TITest, 1)]);
    assert ProvideFrom(H, s, 2, TITest, 2, f + 1) ==
           Complete(2, TITest, FuncP(GetITest, 0, None), CallWith(H, GetITest, ByProvider(2, TITest), args));
  }

  /** The int parameter, once GetITest's result is cached: it comes from the child. */
  lemma IntStep(fuel: nat)
    ensures ResolveParams(H, Cached(), 2, [TITest, TInt], 1, fuel) == Out(Success([Obj(TInt, 123)]), Cached(), [])
  {
    var s1 := Cached();
    var ps := [TITest, TInt];
    assert Resolve(H, s1, 2, 2, TInt, 1, fuel) == Out(Success(Obj(TInt, 123)), s1, []);
    assert ResolveParams(H, s1, 2, ps, 2, fuel) == Out(Success([]), s1, []);
    assert [Obj(TInt, 123)] + [] == [Obj(TInt, 123)];
  }

  /** The ITest parameter, asked through the grandchild, is GetITest's provider step. */
  lemma ITestStep(fuel: nat)
    requires fuel >= 1
    ensures Resolve(H, ThreeLevels(), 2, 2, TITest, 0, fuel) == Out(Success(Obj(TITest, 1)), Cached(), [GetterCall])
  {
    GetterStep(fuel);
  }

  /** Resolving `func(ITest, int)`'s parameters through the grandchild. */
  lemma ParamsStep(fuel: nat)
    requires fuel >= 1
    ensures ResolveParams(H, ThreeLevels(), 2, [TITest, TInt], 0, fuel) ==
            Out(Success([Obj(TITest, 1), Obj(TInt, 123)]), Cached(), [GetterCall])
  {
    ITestStep(fuel);
    IntStep(fuel);
    ParamsCons(H, ThreeLevels(), 2, [TITest, TInt], fuel, Obj(TITest, 1), Cached(), [GetterCall],
               [Obj(TInt, 123)], Cached(), []);
    assert [Obj(TITest, 1)] + [Obj(TInt, 123)] == [Obj(TITest, 1), Obj(TInt, 123)];
    assert [GetterCall] + [] == [GetterCall];
  }

  /** The first parameter, then the rest. */
  lemma ParamsCons(h: Host, s: Store, req: nat, ps: seq<Ty>, fuel: nat,
                   v: Val, s1: Store, log1: seq<CallRec>, vs: seq<Val>, s2: Store, log2: seq<CallRec>)
    requires WF(s) && req < |s| && |ps| > 0
    requires Resolve(h, s, req, req, ps[0], 0, fuel) == Out(Success(v), s1, log1)
    requires ResolveParams(h, s1, req, ps, 1, fuel) == Out(Success(vs), s2, log2)
    ensures ResolveParams(h, s, req, ps, 0, fuel) == Out(Success([v] + vs), s2, log1 + log2)
  {
  }

  /** Invoking `func(ITest, int)` on the grandchild with any fuel of at least
      one: GetITest is found in the grandchild and called with the root's
      string, the int comes from the child, and the invoked function receives
      both; GetITest's result is cached in the grandchild. */
  lemma TwoParents(fuel: nat)
    requires fuel >= 1
    ensures var user := Fn(9, [TITest, TInt], []);
            var o := Invoke(H, ThreeLevels(), 2, [Func(user)], fuel);
            && o.res.Success?
            && o.log == [GetterCall, CallRec(TopLevel, user, [Obj(TITest, 1), Obj(TInt, 123)], [])]
            && o.store[2].providers[TITest] == FuncP(GetITest, 0, Some(Obj(TITest, 1)))
  {
    var user := Fn(9, [TITest, TInt], []);
    ParamsStep(fuel);
    assert FunctionCall(user, H(user, [Obj(TITest, 1), Obj(TInt, 123)])) == Success([]);
    InvokeOne(H, ThreeLevels(), 2, Func(user), fuel);
  }

  /** With no fuel for the nested invocation the model stops short, where the
      source would succeed: fuel 0 is the only amount that falls short here. */
  lemma TwoParentsWithoutFuel()
    ensures var user := Fn(9, [TITest, TInt], []);
            Invoke(H, ThreeLevels(), 2, [Func(user)], 0).res == Failure(ParameterFailed(user, OutOfFuel))
  {
    var user := Fn(9, [TITest, TInt], []);
    InvokeOne(H, ThreeLevels(), 2, Func(user), 0);
  }

  /** MakeITest(n int) ITest and MakeInt(t ITest) int: each needs the other's type. */
  const MakeITest := Fn(10, [TInt], [TITest])
  const MakeInt := Fn(11, [TITest], [TInt])

  /** A dependency cycle the lookup never follows: the root makes an ITest from
      an int, and the child makes an int from an ITest, but the child also holds
      an ITest value, which shadows the root's provider. */
  function Shadowed(): (s: Store)
    ensures WF(s) && |s| == 2
  {
    [Container(map[TITest := FuncP(MakeITest, 0, None)], None),
     Container(map[TITest := ValueP(Obj(TITest, 5)), TInt := FuncP(MakeInt, 0, None)], Some(0))]
  }

  /** No rank on types fits the shadowed store: the cycle rules out every one. */
  lemma ShadowedUnranked(rank: Ty -> nat)
    ensures !Laziness.Ranked(Shadowed(), rank)
  {
    var s := Shadowed();
    assert MakeITest.params[0] == TInt && MakeInt.params[0] == TITest;
    assert !Laziness.Below(MakeITest.params, rank, rank(TITest)) || !Laziness.Below(MakeInt.params, rank, rank(TInt));
    assert s[0].providers[TITest] == FuncP(MakeITest, 0, None);
    assert s[1].providers[TInt] == FuncP(MakeInt, 0, None);
  }

  /** The child's MakeInt provider, asked for the first time: its ITest comes
      from the child's own value, so one level of nesting is enough. */
  lemma ShadowedIntStep(fuel: nat)
    requires fuel >= 1
    ensures var s := Shadowed();
            ProvideFrom(H, s, 1, TInt, 1, fuel) ==
              Out(Success(Obj(TInt, 11)), SetProvider(s, 1, TInt, FuncP(MakeInt, 0, Some(Obj(TInt, 11)))),
                  [CallRec(ByProvider(1, TInt), MakeInt, [Obj(TITest, 5)], [Obj(TInt, 11)])])
  {
    var s := Shadowed();
    var f: nat := fuel - 1;
    assert Resolve(H, s, 1, 1, TITest, 0, f) == Out(Success(Obj(TITest, 5)), s, []);
    assert ResolveParams(H, s, 1, MakeInt.params, 1, f) == Out(Success([]), s, []);
    assert [Obj(TITest, 5)] + [] == [Obj(TITest, 5)];
    var args := ResolveParams(H, s, 1, MakeInt.params, 0, f);
    assert args == Out(Success([Obj(TITest, 5)]), s, []);
    assert H(MakeInt, [Obj(TITest, 5)]) == [Obj(TInt, 11)];
    assert FunctionCall(MakeInt, [Obj(TInt, 11)]) == Success([Obj(TInt, 11)]);
    assert ProvideFrom(H, s, 1, TInt, 1, f + 1) ==
           Complete(1, TInt, FuncP(MakeInt, 0, None), CallWith(H, MakeInt, ByProvider(1, TInt), args));
  }

  /** Invoking `func(int)` on the child of the shadowed store succeeds with any
      fuel of at least one, though no rank exists (ShadowedUnranked): the
      at-most-once and fuel guarantees of module Laziness do not cover it, yet
      the source returns here. */
  lemma ShadowedInvoke(fuel: nat)
    requires fuel >= 1
    ensures var user := Fn(12, [TInt], []);
            var o := Invoke(H, Shadowed(), 1, [Func(user)], fuel);
            && o.res.Success?
            && o.log == [CallRec(ByProvider(1, TInt), MakeInt, [Obj(TITest, 5)], [Obj(TInt, 11)]),
                         CallRec(TopLevel, user, [Obj(TInt, 11)], [])]
  {
    var s := Shadowed();
    var user := Fn(12, [TInt], []);
    ShadowedIntStep(fuel);
    var s1 := SetProvider(s, 1, TInt, FuncP(MakeInt, 0, Some(Obj(TInt, 11))));
    var call := CallRec(ByProvider(1, TInt), MakeInt, [Obj(TITest, 5)], [Obj(TInt, 11)]);
    assert Resolve(H, s, 1, 1, TInt, 0, fuel) == Out(Success(Obj(TInt, 11)), s1, [call]);
    assert ResolveParams(H, s1, 1, user.params, 1, fuel) == Out(Success([]), s1, []);
    ParamsCons(H, s, 1, user.params, fuel, Obj(TInt, 11), s1, [call], [], s1, []);
    assert [Obj(TInt, 11)] + [] == [Obj(TInt, 11)];
    assert [call] + [] == [call];
    assert FunctionCall(user, H(user, [Obj(TInt, 11)])) == Success([]);
    InvokeOne(H, s, 1, Func(user), fuel);
  }

  /** Pair() (string, int): one function with two results. */
  const Pair := Fn(20, [], [TString, TInt])
  const PairResults := [Obj(TString, 20), Obj(TInt, 20)]
  const PairForString := CallRec(ByProvider(0, TString), Pair, [], PairResults)
  const PairForInt := CallRec(ByProvider(0, TInt), Pair, [], PairResults)

  /** Registering Pair gives two sibling providers, one per result position. */
  lemma PairRegistered()
    ensures Provide(map[], Func(Pair)) == Update(Pass, PairStore()[0].providers)
  {
    var m0 := map[TString := FuncP(Pair, 0, None)];
    var m1 := PairStore()[0].providers;
    assert ProvideFunctionValue(map[], Pair, 0) == Update(Pass, m0);
    assert ProvideFunctionValue(m0, Pair, 1) == Update(Pass, m1);
    assert ProvideResults(m1, Pair, 2) == Update(Pass, m1);
    assert ProvideResults(m0, Pair, 1) == Update(Pass, m1);
    assert ProvideResults(map[], Pair, 0) == Update(Pass, m1);
    assert ProvideFunction(map[], Pair) == Update(Pass, m1);
  }

  /** A root holding Pair's two providers, both unset. */
  function PairStore(): (s: Store)
    ensures WF(s) && |s| == 1
  {
    [Container(map[TString := FuncP(Pair, 0, None), TInt := FuncP(Pair, 1, None)], None)]
  }

  /** The store once the string provider has cached its result. */
  function PairStringSet(): (s: Store)
    ensures WF(s) && |s| == 1
  {
    SetProvider(PairStore(), 0, TString, FuncP(Pair, 0, Some(Obj(TString, 20))))
  }

  /** The store once both providers have cached their results. */
  function PairBothSet(): (s: Store)
    ensures WF(s) && |s| == 1
  {
    SetProvider(PairStringSet(), 0, TInt, FuncP(Pair, 1, Some(Obj(TInt, 20))))
  }

  /** Either of Pair's providers, asked for the first time in any one-container
      store: it calls Pair with no arguments and caches its own result. */
  lemma PairStep(s: Store, t: Ty, index: nat, fuel: nat)
    requires WF(s) && |s| == 1 && t in s[0].providers && index < 2
    requires s[0].providers[t] == FuncP(Pair, index, None) && fuel >= 1
    ensures ProvideFrom(H, s, 0, t, 0, fuel) ==
            Out(Success(PairResults[index]), SetProvider(s, 0, t, FuncP(Pair, index, Some(PairResults[index]))),
                [CallRec(ByProvider(0, t), Pair, [], PairResults)])
  {
    var f: nat := fuel - 1;
    var args := ResolveParams(H, s, 0, Pair.params, 0, f);
    assert args == Out(Success([]), s, []);
    assert H(Pair, []) == PairResults;
    assert FunctionCall(Pair, PairResults) == Success(PairResults);
    assert ProvideFrom(H, s, 0, t, 0, f + 1) ==
           Complete(0, t, FuncP(Pair, index, None), CallWith(H, Pair, ByProvider(0, t), args));
  }

  /** `func(string, int)`, invoked against Pair's providers. */
  const PairUser := Fn(21, [TString, TInt], [])

  /** The int parameter, after the string provider ran: the sibling calls Pair. */
  lemma PairSecondParam(fuel: nat)
    requires fuel >= 1
    ensures ResolveParams(H, PairStringSet(), 0, PairUser.params, 1, fuel) ==
            Out(Success([Obj(TInt, 20)]), PairBothSet(), [PairForInt])
  {
    var s1 := PairStringSet();
    var s2 := PairBothSet();
    PairStep(s1, TInt, 1, fuel);
    assert Resolve(H, s1, 0, 0, TInt, 1, fuel) == Out(Success(Obj(TInt, 20)), s2, [PairForInt]);
    assert ResolveParams(H, s2, 0, PairUser.params, 2, fuel) == Out(Success([]), s2, []);
    assert [Obj(TInt, 20)] + [] == [Obj(TInt, 20)];
    assert [PairForInt] + [] == [PairForInt];
  }

  /** Both parameters: each sibling provider calls Pair on its first request. */
  lemma PairParams(fuel: nat)
    requires fuel >= 1
    ensures ResolveParams(H, PairStore(), 0, PairUser.params, 0, fuel) ==
            Out(Success(PairResults), PairBothSet(), [PairForString, PairForInt])
  {
    PairStep(PairStore(), TString, 0, fuel);
    assert Resolve(H, PairStore(), 0, 0, TString, 0, fuel) == Out(Success(Obj(TString, 20)), PairStringSet(), [PairForString]);
    PairSecondParam(fuel);
    ParamsCons(H, PairStore(), 0, PairUser.params, fuel, Obj(TString, 20), PairStringSet(), [PairForString],
               [Obj(TInt, 20)], PairBothSet(), [PairForInt]);
    assert [Obj(TString, 20)] + [Obj(TInt, 20)] == PairResults;
    assert [PairForString] + [PairForInt] == [PairForString, PairForInt];
  }

  /** "At most once" is per provider, not per function: invoking `func(string,
      int)` against Pair's two providers calls Pair twice, once for each. */
  lemma PairCalledTwice(fuel: nat)
    requires fuel >= 1
    ensures var o := Invoke(H, PairStore(), 0, [Func(PairUser)], fuel);
            && o.res.Success?
            && o.log == [PairForString, PairForInt, CallRec(TopLevel, PairUser, PairResults, [])]
  {
    PairParams(fuel);
    assert FunctionCall(PairUser, H(PairUser, PairResults)) == Success([]);
    InvokeOne(H, PairStore(), 0, Func(PairUser), fuel);
  }

  /** Without any provider the parameter cannot be resolved: the error names
      the parameter's position and type, and nothing is called or changed. */
  lemma MissingProvider(fuel: nat)
    ensures var s := [Container(map[], None)];
            var o := Invoke(H, s, 0, [Func(GetITest)], fuel);
            && o == Out(Failure(ParameterFailed(GetITest, ProviderNotFound(0, TString))), s, [])
            && Cause(o.res.error) == ProviderNotFound(0, TString)
  {
    var s := [Container(map[], None)];
    assert Resolve(H, s, 0, 0, TString, 0, fuel) == Out(Failure(ProviderNotFound(0, TString)), s, []);
    InvokeOne(H, s, 0, Func(GetITest), fuel);
  }
}

=== FILE: types.dfy ===
/** The parts of Go's reflection the container relies on, as plain data:
    type identities, runtime values, function signatures and the dynamic call. */
module Types {
  import opened Wrappers

  /** A type identity. `name` is what the type prints as; two distinct types
      may print the same name, so `id` is part of the identity too. */
  datatype Ty = Ty(name: string, id: nat)

  /** The container recognises the error type by its printed name alone. */
  predicate IsError(t: Ty) {
    t.name == "error"
  }

  /** A runtime value: nil, or an object of some dynamic type. */
  datatype Val = Nil | Obj(ty: Ty, id: nat)

  /** A function value: its identity and its ordered parameter and result types. */
  datatype Fn = Fn(id: nat, params: seq<Ty>, results: seq<Ty>)

  /** What Provide and Invoke accept: a function, any other non-nil value,
      which carries its dynamic type, or the nil interface, which has none. */
  datatype Any = Func(fn: Fn) | Plain(ty: Ty, id: nat) | Null

  /** The error kinds the container reports. Wrapping errors keep their cause. */
  datatype Error =
    | DuplicateProvider(ty: Ty)             // a provider for the type already exists
    | ErrorTypedValue(ty: Ty)               // a plain value of the error type
    | NoReturnValues(fn: Fn)                // a function with no results at all
    | ProviderRejected(fn: Fn, cause: Error)  // registering one result of fn failed
    | NotAFunction(kind: Option<Ty>)        // Invoke was given a plain value (None: nil)
    | ProviderNotFound(index: nat, ty: Ty)  // the parent chain has no provider
    | ParameterFailed(fn: Fn, cause: Error)   // resolving a parameter of fn failed
    | Returned(err: Val)                    // a called function returned a non-nil error
    | OutOfFuel                             // the model's bound on nested invocations

  /** The innermost error, as repeated unwrapping would find it. */
  function Cause(e: Error): Error {
    match e
    case ProviderRejected(_, c) => Cause(c)
    case ParameterFailed(_, c) => Cause(c)
    case _ => e
  }

  /** Calling a function dynamically: the host returns one value per declared result. */
  type Host = h: (Fn, seq<Val>) -> seq<Val> | forall f, args :: |h(f, args)| == |f.results|
    witness (f: Fn, args: seq<Val>) => seq(|f.results|, _ => Nil)

  /** The outcome of a registry update: Go mutates the map and returns an error,
      so a failed update can still leave changes behind. */
  datatype Update<S> = Update(outcome: Outcome<Error>, state: S)
}

=== FILE: variant.dfy ===
/** The second version of the registry, in provide.go: one provider struct for
    both kinds, told apart by the provide function it was built with, and a
    signed result position that is -1 for a value provider. Its map operations
    are those of module Providers, except that the map holds the structs by
    value. Its provide step, run on a struct, is shown to behave as the
    provider of providers.go does; run through the map, it acts on the copy
    that the lookup returns, so a cached result never reaches the map. */
module Variant {
  import opened Wrappers
  import opened Types
  import opened Providers

  /** Which of the two provide functions the struct was built with. */
  datatype Behaviour = ReturnValue | InvokeOnce

  /** The single provider struct. `value` is None while it holds Go's invalid
      zero value; `fn` is None for a value provider. */
  datatype VProvider = VProvider(value: Option<Val>, fn: Option<Fn>, parameterIndex: int, behaviour: Behaviour)

  type VRegistry = map<Ty, VProvider>

  /** What a lazy provider's invocation hands back: an error, or one value per
      declared result of the function. Registry and log threading belong to
      the engine (module Resolution), not to the provider. */
  type Invoker = inv: Fn -> Result<seq<Val>, Error> | forall f :: inv(f).Success? ==> |inv(f).value| == |f.results|
    witness (f: Fn) => Success(seq(|f.results|, _ => Nil))

  /** The shapes the two constructors produce, later cache fills included. */
  predicate Valid(p: VProvider) {
    match p.behaviour
    case ReturnValue => p.value.Some? && p.fn.None? && p.parameterIndex == -1
    case InvokeOnce => p.fn.Some? && 0 <= p.parameterIndex < |p.fn.value.results|
  }

  function NewFunctionProvider(fn: Fn, index: nat): (p: VProvider)
    requires index < |fn.results|
    ensures Valid(p) && p.behaviour == InvokeOnce && p.value.None?
    ensures p.fn == Some(fn) && p.parameterIndex == index
  {
    VProvider(None, Some(fn), index, InvokeOnce)
  }

  /** A value provider carries result position -1 and no function. */
  function NewValueProvider(v: Val): (p: VProvider)
    ensures Valid(p) && p.behaviour == ReturnValue
    ensures p.value == Some(v) && p.parameterIndex == -1
  {
    VProvider(Some(v), None, -1, ReturnValue)
  }

  function AddFunction(reg: VRegistry, fn: Fn, t: Ty, index: nat): (u: Update<VRegistry>)
    requires index < |fn.results|
    ensures Contains(reg, t) ==> u == Update(Fail(DuplicateProvider(t)), reg)
    ensures !Contains(reg, t) ==> u.outcome.Pass? && u.state == reg[t := NewFunctionProvider(fn, index)]
  {
    AddProvider(reg, t, NewFunctionProvider(fn, index))
  }

  function AddValue(reg: VRegistry, v: Val): (u: Update<VRegistry>)
    requires v.Obj?
    ensures Contains(reg, v.ty) ==> u == Update(Fail(DuplicateProvider(v.ty)), reg)
    ensures !Contains(reg, v.ty) ==> u.outcome.Pass? && u.state == reg[v.ty := NewValueProvider(v)]
  {
    AddProvider(reg, v.ty, NewValueProvider(v))
  }

  /** One provide call: the value handed out, the provider afterwards, and
      whether the provider's function was invoked. */
  datatype Provided = Provided(res: Result<Val, Error>, provider: VProvider, invoked: bool)

  /** A value provider hands out its value; a function provider hands out its
      value once it is valid, and otherwise invokes its function, keeping the
      result at its position on success and nothing on failure. */
  function Provide(p: VProvider, invoke: Invoker): (o: Provided)
    requires Valid(p)
    ensures Valid(o.provider)
    ensures o.provider.fn == p.fn && o.provider.parameterIndex == p.parameterIndex
    ensures o.provider.behaviour == p.behaviour
    ensures o.invoked <==> p.behaviour == InvokeOnce && p.value.None?
    ensures o.res.Success? ==> o.provider.value == Some(o.res.value)
  {
    if p.behaviour == ReturnValue || p.value.Some? then Provided(Success(p.value.value), p, false)
    else
      match invoke(p.fn.value)
      case Failure(e) => Provided(Failure(e), p, true)
      case Success(values) =>
        var v := values[p.parameterIndex];
        Provided(Success(v), p.(value := Some(v)), true)
  }

  // ---------------------------------------------------------------------------
  // The variant against the provider of providers.go
  // ---------------------------------------------------------------------------

  /** The provider of providers.go that a valid struct stands for. */
  function Abs(p: VProvider): (a: Provider)
    requires Valid(p)
    ensures a.FuncP? <==> p.behaviour == InvokeOnce
  {
    match p.behaviour
    case ReturnValue => ValueP(p.value.value)
    case InvokeOnce => FuncP(p.fn.value, p.parameterIndex as nat, p.value)
  }

  /** The variant's constructors build the providers of providers.go. */
  lemma ConstructorsAgree(fn: Fn, index: nat, v: Val)
    requires index < |fn.results|
    ensures Abs(NewFunctionProvider(fn, index)) == Providers.NewFunctionProvider(fn, index)
    ensures Abs(NewValueProvider(v)) == Providers.NewValueProvider(v)
  {
  }

  /** Provide refines the provider of providers.go: a provider that is Ready
      hands out that value without invoking and stays as it is; any other
      provider invokes once and ends up as Settle leaves its abstraction. */
  lemma ProvideRefines(p: VProvider, invoke: Invoker)
    requires Valid(p)
    ensures var o := Provide(p, invoke);
            && (Ready(Abs(p)).Some? ==> o == Provided(Success(Ready(Abs(p)).value), p, false))
            && (Ready(Abs(p)).None? ==>
                  && o.invoked
                  && var invoked := invoke(p.fn.value);
                     && (invoked.Success? ==> Abs(p).index < |invoked.value|)
                     && Settle(Abs(p), invoked) == (o.res, Abs(o.provider)))
  {
  }

  /** A value provider returns its value whatever the invocation would give. */
  lemma ValueProviderConstant(v: Val, inv1: Invoker, inv2: Invoker)
    ensures Provide(NewValueProvider(v), inv1) == Provide(NewValueProvider(v), inv2)
    ensures Provide(NewValueProvider(v), inv1) == Provided(Success(v), NewValueProvider(v), false)
  {
  }

  /** After a successful provide the provider never invokes again and keeps
      handing out the same value; after a failed one it is exactly as before,
      so the next provide tries again. */
  lemma ProvideOnce(p: VProvider, inv1: Invoker, inv2: Invoker)
    requires Valid(p)
    ensures var o := Provide(p, inv1);
            && (o.res.Success? ==> Provide(o.provider, inv2) == Provided(o.res, o.provider, false))
            && (o.res.Failure? ==> o.provider == p && o.invoked && inv1(p.fn.value).Failure?
                                   && o.res.error == inv1(p.fn.value).error)
  {
  }

  /** On success a lazy provider keeps and returns the invocation's result at
      its own position. */
  lemma ProvideKeepsOwnResult(p: VProvider, invoke: Invoker)
    requires Valid(p) && p.behaviour == InvokeOnce && p.value.None?
    ensures var o := Provide(p, invoke);
            o.res.Success? <==> invoke(p.fn.value).Success?
    ensures var o := Provide(p, invoke);
            o.res.Success? ==> o.res.value == invoke(p.fn.value).value[p.parameterIndex]
                               && o.provider.value == Some(o.res.value)
  {
  }

  // ---------------------------------------------------------------------------
  // Requests through the map, which holds the structs by value
  // ---------------------------------------------------------------------------

  predicate ValidRegistry(reg: VRegistry) {
    forall t :: t in reg ==> Valid(reg[t])
  }

  /** A request for `t`: getProvider returns a copy of the stored struct, and
      the provide step runs on that copy. The map itself is never written, so
      the registry comes back as it was, and the answer is the copy's. */
  function Request(reg: VRegistry, t: Ty, invoke: Invoker): (r: (Option<Provided>, VRegistry))
    requires ValidRegistry(reg)
    ensures r.1 == reg
    ensures r.0.None? <==> !Contains(reg, t)
    ensures r.0.Some? ==> (r.0.value.invoked <==> reg[t].behaviour == InvokeOnce && reg[t].value.None?)
    ensures r.0.Some? && r.0.value.res.Success? ==> r.0.value.provider.value == Some(r.0.value.res.value)
  {
    match GetProvider(reg, t)
    case None => (None, reg)
    case Some(p) => (Some(Provide(p, invoke)), reg)
  }

  /** The cache is lost: after a request that succeeded by invoking the
      function, the map still holds an invalid value, the copy held the result,
      and the next request invokes the function again. The provider of
      providers.go, stored by pointer, does not (Resolution.SecondRequestIsFree). */
  lemma CopyLosesCache(reg: VRegistry, t: Ty, inv1: Invoker, inv2: Invoker)
    requires ValidRegistry(reg) && t in reg
    requires reg[t].behaviour == InvokeOnce && reg[t].value.None?
    ensures var r1 := Request(reg, t, inv1);
            var r2 := Request(r1.1, t, inv2);
            && r1.0.Some? && r1.0.value.invoked
            && (r1.0.value.res.Success? ==> r1.0.value.provider.value.Some?)
            && GetProvider(r1.1, t) == Some(reg[t]) && reg[t].value.None?
            && r2.0.Some? && r2.0.value.invoked
  {
  }
}

=== FILE: wrappers.dfy ===
/** Option, result and outcome wrappers used throughout the model. */
module Wrappers {

  /** An optional value: Go's "found" flag, an unset cache, a missing parent. */
  datatype Option<+T> = None | Some(value: T)

  /** A value or an error: Go's `(T, error)` return pair. */
  datatype Result<+T, +E> = Success(value: T) | Failure(error: E)

  /** Only an error: Go's bare `error` return. */
  datatype Outcome<+E> = Pass | Fail(error: E)
}
